=== FILE: README.md ===
# Homebuyer readiness: a Dafny model

This project models the logic of a homebuyer-readiness coaching application.
A scripted chat collects an applicant's profile and then computes a
**readiness score**. The score has four weighted sub-scores: affordability 40,
credit 25, reserves 20 and document packet 15. The application also computes a
**monthly payment band** (PITI: principal, interest, taxes, insurance) and a
**weeks-to-ready projection**. The projection drives a seven-milestone
timeline. The user then works through five checklist phases: documents,
credit, lender packet, pre-approval and appraisal. Each completed phase
**boosts** the score. The model also covers the checklist cards behind these
phases, the lender recommendation rule and the sign-up form's submit rule.

Everything is modelled as pure functions over immutable datatypes.

- Money and ratios are exact `real`s.
- `Math.round` is `Base.Round(x) = Floor(x + 1/2)`, its value on finite numbers.
- `Math.ceil` and `Math.floor` are `Base.Ceil` and `Base.Floor`.
- An optional field read as `field || default` is `Base.OrReal`, `Base.OrInt` or `Base.OrText`.
  Under these, an absent field and a zero (or empty string) both take the default.

Modules:

- `Base` holds shared helpers.
- `Calculations` is the scoring and timeline engine (`src/utils/calculations.ts`).
- `Coach` holds the session rules of `src/pages/HomeCoach.tsx`.
- `DocumentCard`, `TimelineCard`, `FindLender` and `Signup` model one component each.
- `Checklist` holds the toggle and completion rule that four cards share.
  The cards themselves are `CreditTuneUpCard`, `LenderPacketCard`, `PreApprovalCard` and `AppraisalPrepCard`.

Notes on the code's behaviour:

- The normalisers do not guard against a zero divisor. `AffordabilityFit` and
  `ReservesPoints` therefore require a non-zero income and a non-zero mid
  payment. In the code a zero divisor gives an infinite or not-a-number ratio.
- `low <= high` for the payment band holds whenever the monthly payment is
  non-negative, for example for a non-negative price, a down payment of at most
  100% and a positive amortisation factor. Only a negative payment can reverse
  the band, and one does: a price of -100000 with no down payment gives
  (-665, -735) at a factor of 0.006.
- The timeline card ignores the statuses that `generateTimeline` assigns. It
  recomputes every status from the set of completed phases. With no completed
  phase, both the assistance check and the documents milestone show as current.
- The booster caps the score with `min(100, score + boost)`. An unknown phase
  gets a boost of 0, but a score already above 100 is still lowered to 100.

## Model

| member | source | states |
|---|---|---|
| Base.Round | src/utils/calculations.ts:26-27 | the rounded value is within one half of its argument, rounding halves up |
| Base.Ceil | src/utils/calculations.ts:100-103 | the result is the least integer not below its argument |
| Base.OrReal | src/utils/calculations.ts:77-83 | a present non-zero field is kept; an absent or zero field yields the default |
| Base.OrInt | src/utils/calculations.ts:82 | a present non-zero integer field is kept; an absent or zero one yields the default |
| Base.OrText | src/pages/HomeCoach.tsx:216 | a present non-empty text field is kept; an absent or empty one yields the default |
| Calculations.MonthlyPayment | src/utils/calculations.ts:12-23 | the payment is the loan (price less the down-payment share) times the amortisation factor plus 0.1% of the price for tax and insurance (0.85% + 0.35% a year, over 12 months); only tax and insurance with a 100% down payment; zero at price 0; non-negative for a non-negative price, a down payment of at most 100% and a positive factor |
| Calculations.MonthlyPaymentScales | src/utils/calculations.ts:12-23 | scaling the price scales the payment by the same factor |
| Calculations.CalculatePiti | src/utils/calculations.ts:7-29 | low and high are the payment times 0.95 and 1.05, each rounded to the nearest unit; 0 <= low <= high whenever the payment is non-negative; price 0 gives (0, 0) |
| Calculations.PitiReversedOnlyWhenNegative | src/utils/calculations.ts:23-28 | a reversed band implies a negative payment; a price of -100000 with no down payment and factor 0.006 gives the reversed band (-665, -735) |
| Calculations.AffordabilityOfRatio | src/utils/calculations.ts:37-43 | result in [0,100]; 100 for ratios up to and including 0.28; 0 for ratios from 0.38 up; in between, 1000 x (0.38 - ratio) rounded to the nearest unit, the linear scale from 100 down to 0 |
| Calculations.AffordabilityFit | src/utils/calculations.ts:31-44 | for a non-zero income, in [0,100]; 100 when payment/income < 0.28, 0 when > 0.38, and 1000 x (0.38 - payment/income) rounded in between |
| Calculations.AffordabilityNonIncreasing | src/utils/calculations.ts:37-43 | a higher payment-to-income ratio never scores higher |
| Calculations.CreditPoints | src/utils/calculations.ts:46-52 | in [0,100]; exactly 100 iff score >= 640; exactly 0 iff score <= 580; from 580 to 640, (score - 580) x 5/3 rounded to the nearest unit |
| Calculations.CreditNonDecreasing | src/utils/calculations.ts:46-52 | a higher credit score never earns fewer points |
| Calculations.CreditPointsAt630 | src/utils/calculations.ts:51 | a 630 credit score earns 83 points |
| Calculations.ReservesPoints | src/utils/calculations.ts:54-66 | in [0,100]; 100 at two or more months of payments covered by savings plus assistance; 0 at zero or fewer months; in between, 50 points per month, rounded to the nearest unit |
| Calculations.ReservesNonDecreasing | src/utils/calculations.ts:59-65 | for a fixed positive payment, more savings plus assistance never earns fewer points |
| Calculations.PacketPoints | src/utils/calculations.ts:68-70 | the completeness rounded to the nearest unit, in [0,100] when the completeness is |
| Calculations.WeightedSumIsComposite | src/utils/calculations.ts:86-91 | the 0.40/0.25/0.20/0.15 sum equals the breakdown's score-times-weight sum over 100 |
| Calculations.CompositeInRange | src/utils/calculations.ts:86-91 | with the standard weights and sub-scores in [0,100] the composite is in [0,100] |
| Calculations.WeightsSumToHundred | src/utils/calculations.ts:116-121 | the breakdown weights 40, 25, 20, 15 sum to 100 |
| Calculations.TargetPrice | src/utils/calculations.ts:77 | twice the target price is the sum of the two ends of the range, each missing or zero end counting as 0; it lies between the ends when they are ordered, and equals the single price when both ends agree |
| Calculations.DownPaymentPct | src/utils/calculations.ts:78 | a given non-zero down payment is used; a missing or zero one is 3% |
| Calculations.PitiMid | src/utils/calculations.ts:79 | twice the mid payment is low plus high of the profile's payment band; it lies within the band, and is non-negative for a non-negative price and a 0..100% down payment |
| Calculations.CashGap | src/utils/calculations.ts:94-98 | the gap is never negative and is either zero or the cash needed (down payment, 3% closing costs, two months of payments) minus savings and assistance |
| Calculations.TotalCashNeeded | src/utils/calculations.ts:94-97 | cash needed minus two months of the mid payment is the target price times (down-payment percent / 100 + 3%); at least the two months' reserve, and non-negative, for a non-negative price and a 0..100% down payment |
| Calculations.WeeklySaving | src/utils/calculations.ts:99-100 | the weekly saving rate is the monthly surplus (income less rent and minimum debts, each missing one counting as 0) over 4.33, or 100 when that is smaller |
| Calculations.CashWeeks | src/utils/calculations.ts:100 | zero iff there is no cash gap; otherwise the fewest whole weeks of saving that cover the gap |
| Calculations.CreditWeeks | src/utils/calculations.ts:102 | 6 iff the credit score (missing counts as 0) is below 640, else 0 |
| Calculations.PacketWeeks | src/utils/calculations.ts:103 | the fewest whole 10% blocks covering the missing completeness; in [0,10] for completeness in [0,100] |
| Calculations.EtaWeeks | src/utils/calculations.ts:105 | the ETA is non-negative, at least each of the three estimates, and equal to one of them |
| Calculations.CalculateReadinessScore | src/utils/calculations.ts:72-123 | affordability is AffordabilityFit of the mid payment and income, credit is CreditPoints of the defaulted score, reserves is ReservesPoints of savings, assistance and the mid payment, packet is PacketPoints of the completeness; the score is the rounded 40/25/20/15 weighted sum of these; each breakdown score equals its flat field; sub-scores in [0,100]; score in [0,100] for completeness in [0,100]; reserve months are savings over the mid payment, without assistance; band and ETA come from CalculatePiti and EtaWeeks |
| Calculations.MissingDownPaymentIsThreePercent | src/utils/calculations.ts:78-94 | a missing, zero or 3% down payment give the identical readiness score |
| Calculations.ReservesMonthsIgnoreAssistance | src/utils/calculations.ts:114 | the reported months of reserves do not depend on the assistance amount |
| Calculations.GenerateTimeline | src/utils/calculations.ts:125-146 | seven milestones with ids budget, dpa, docs, credit, packet, preapproval, appraisal in order; statuses completed, current, then upcoming; weeks 0 and 1 for budget and dpa; docs is floor(0.3 x ETA) capped at 3, credit floor(0.5 x ETA) capped at 6, packet floor(0.8 x ETA); pre-approval at the ETA and appraisal at ETA + 2; for a non-negative ETA the weeks from docs on are non-decreasing and lie in [0, ETA+2] |
| Calculations.TimelineForTenWeeks | src/utils/calculations.ts:132-140 | an ETA of 10 gives weeks 0, 1, 3, 5, 8, 10, 12 |
| Calculations.DpaAfterDocsIff | src/utils/calculations.ts:134-135 | the one-week assistance check falls after the documents milestone iff the ETA is under 4 weeks |
| Coach.BoostFor | src/pages/HomeCoach.tsx:350-358 | boost is 5 for each of the five phase names and 0 for any other name |
| Coach.UpdateReadinessScore | src/pages/HomeCoach.tsx:346-372 | no score stays no score; otherwise score and packet sub-score become min(100, value + boost) while the other sub-scores, the packet weight, the payment band and the ETA are unchanged; an unknown phase changes nothing from values at most 100 |
| Coach.BoostMonotoneAndCapped | src/pages/HomeCoach.tsx:359-368 | from values at most 100, the boost never lowers the score or packet sub-score and never passes 100; at 100 it changes nothing |
| Coach.BoostsAccumulate | src/pages/HomeCoach.tsx:295-339 | n boosts of known phases in sequence raise the score to min(100, score + 5n) |
| Coach.AllPhasesBoost | src/pages/HomeCoach.tsx:295-339 | completing all five phases yields min(100, score + 25) |
| Coach.BoostDriftsFromWeightedSum | src/pages/HomeCoach.tsx:359-371 | a boosted score can differ from the weighted sum of its boosted breakdown |
| Coach.MarkVerified | src/pages/HomeCoach.tsx:272-274 | same length and types; entries of the uploaded type become verified; others keep their status |
| Coach.UploadDocument | src/pages/HomeCoach.tsx:267-277 | an existing type keeps the length and changes only that type's entries, to verified; a new type is appended at the end as verified |
| Coach.MarkVerifiedKeepsOthers | src/pages/HomeCoach.tsx:272-274 | marking one type verified leaves the first entry of every other type unchanged |
| Coach.UploadVerifies | src/pages/HomeCoach.tsx:269-277 | after an upload the uploaded type is verified and every type verified before still is |
| Coach.UploadNeverLowersCount | src/pages/HomeCoach.tsx:267-277 | an upload never lowers the document card's completed count |
| Coach.PacketCompleteness | src/pages/HomeCoach.tsx:281-282 | completeness times 8 equals the number of entries times 100; at most 100 for at most 8 entries |
| Coach.HandleDocumentUpload | src/pages/HomeCoach.tsx:267-293 | documents become the upsert; a score, when one exists, is recomputed with no assistance and the new completeness, and stays in [0,100] for at most 8 entries |
| Coach.StatedPrice | src/pages/HomeCoach.tsx:194-203 | a stated number is the price; else "not sure" gives income (default 4000) x 0.28 x 150; else 0 |
| Coach.IntakeProfile | src/pages/HomeCoach.tsx:206-220 | given non-zero answers and a non-empty zip are kept; a missing or zero income becomes 4000, debts 500, credit score 650, savings 5000; a missing or empty zip becomes 27610; the target price is the stated price or, when that is 0, 200000, for both ends of the range; rent is 0 and the down payment 3% |
| Coach.UnsurePriceDefaultsToIncome | src/pages/HomeCoach.tsx:198-203 | an unsure answer with no income on file gives a target price of 168000 |
| Coach.GenerateResponse | src/pages/HomeCoach.tsx:85-263 | steps 0..6 stay or advance by one; 0 and 6 always advance; other steps go to 7 and change nothing; step 1 advances iff a zip or more than 2 characters and records the zip when one was found; step 2 advances iff a positive income and records it; steps 3 and 5 advance iff a number and record debts or savings; step 4 advances iff a score in [300,850] and records it; each of these changes no other field, and staying records nothing; only step 6 scores, on the default-filled profile, and only step 6 switches the session to the readiness phase |
| Coach.IntakeScoreShape | src/pages/HomeCoach.tsx:223 | the score produced by the intake is in [0,100], has no packet points, and its ETA is at least 10 weeks |
| Coach.CompletePhase | src/pages/HomeCoach.tsx:295-339 | the completed set gains the phase and only grows; the session moves to the next phase; the score receives the phase's boost and, from at most 100, does not decrease or pass 100 |
| Coach.CompleteSurvey | src/pages/HomeCoach.tsx:341-344 | the survey handler moves to the final phase and changes nothing else |
| Coach.Checkpoint.Next | src/pages/HomeCoach.tsx:295-337 | each completion handler moves to the phase right after the one it closes, in the order of the phase type; only the appraisal handler leads to the survey |
| Coach.Checkpoint.Closes | src/pages/HomeCoach.tsx:22 | the phase a checkpoint closes is one of the five checklist phases, and its position matches the checkpoint's name in the phase list |
| Coach.ProgressPercent | src/pages/HomeCoach.tsx:565 | 20 points per completed phase; for a set of known phases in [0,100], and 100 iff all five are done; 0 for the empty set |
| Coach.JourneySteps | src/pages/HomeCoach.tsx:295-339 | from any session, the five completion handlers in order record all five phases, move to the survey and apply the five boosts in phase order |
| Coach.FullJourney | src/pages/HomeCoach.tsx:295-339 | the five handlers in order from a fresh session reach the survey with 100% progress and score min(100, score + 25) |
| Coach.BoostsInOrder | src/pages/HomeCoach.tsx:295-339 | boosting by the whole phase list equals boosting by documents, credit, packet, pre-approval and appraisal in turn |
| TimelineCard.PhaseOf | src/components/TimelineCard.tsx:24-32 | docs, credit, packet, preapproval and appraisal map to documents, credit, packet, preapproval and appraisal, in the order of the generated timeline; every other id has no phase |
| TimelineCard.PhaseIndex | src/components/TimelineCard.tsx:43-44 | the position of a phase in the phase order, or -1 for a name outside it |
| TimelineCard.HighestCompleted | src/components/TimelineCard.tsx:45-48 | the highest position of a completed known phase, or -1; names outside the five are ignored |
| TimelineCard.MilestoneStatus | src/components/TimelineCard.tsx:23-54 | a milestone whose phase is completed is completed; budget is always completed; dpa is completed iff the set is non-empty, else current; an uncompleted phase milestone is current iff its position is one past the highest completed; any other id is upcoming |
| TimelineCard.AtMostOneCurrentPhase | src/components/TimelineCard.tsx:42-51 | two phase milestones that are both current are the same milestone |
| TimelineCard.CurrentFollowsHighest | src/components/TimelineCard.tsx:48-50 | the current phase milestone and every later phase are not completed |
| TimelineCard.ForeignNamesIgnored | src/components/TimelineCard.tsx:45-47 | adding a name outside the five phases changes no status except the assistance check's |
| TimelineCard.DisplayedStatuses | src/components/TimelineCard.tsx:85-87 | one recomputed status per milestone, in order |
| TimelineCard.FreshTimelineStatuses | src/components/TimelineCard.tsx:38-50 | with nothing completed, budget is completed, dpa and docs are current and the rest upcoming |
| TimelineCard.FinishedTimelineStatuses | src/components/TimelineCard.tsx:32-39 | with all five phases done, every milestone is completed |
| DocumentCard.GetDocumentStatus | src/components/DocumentUploadCard.tsx:24-26 | no result iff no entry has the type; a result is an entry of the list with that type |
| DocumentCard.GetDocumentStatusIsFirst | src/components/DocumentUploadCard.tsx:24-26 | the entry found comes before every other entry of its type |
| DocumentCard.CompletedCount | src/components/DocumentUploadCard.tsx:38-40 | the number of distinct required types whose first entry is verified; at most 4 |
| DocumentCard.IsAllComplete | src/components/DocumentUploadCard.tsx:42 | continue is enabled iff every one of the four required types is verified |
| DocumentCard.UploadButtons | src/components/DocumentUploadCard.tsx:80-95 | an upload button is shown exactly for required types not yet verified; buttons plus completed count make 4 |
| DocumentCard.NonRequiredIgnored | src/components/DocumentUploadCard.tsx:38-40 | inserting an entry of a non-required type anywhere leaves the completed count unchanged |
| FindLender.GetLenders | src/components/FindLenderDialog.tsx:38-96 | three lenders: ids 1, 2, 4 for a score of at least 700 and 2, 3, 4 below (missing or zero counts as 650); lenders other than 4 are located at the zip code or "Your Area", lender 4 "Nationwide" |
| FindLender.AlwaysTwoAndFour | src/components/FindLenderDialog.tsx:43-93 | lenders 2 and 4 are always offered and 1 and 3 never together |
| FindLender.MissingCreditIs650 | src/components/FindLenderDialog.tsx:39 | a missing, zero or 650 score give the same lenders, namely 2, 3, 4 |
| Checklist.Toggle | src/components/CreditTuneUpCard.tsx:52-57 | same length, ids and titles; tasks with the id flip their completed flag; all other tasks are unchanged |
| Checklist.ToggleTwice | src/components/LenderPacketCard.tsx:54-59 | toggling the same id twice restores the list |
| Checklist.ToggleUnknown | src/components/PreApprovalCard.tsx:46-51 | toggling an id no task has changes nothing |
| Checklist.CompletedCount | src/components/CreditTuneUpCard.tsx:61 | the number of ticked tasks is at most the number of tasks |
| Checklist.IsAllComplete | src/components/CreditTuneUpCard.tsx:62 | continue is enabled iff every task is ticked |
| Checklist.CountFullIff | src/components/CreditTuneUpCard.tsx:61-62 | the ticked count equals the number of tasks iff every task is ticked |
| Checklist.ToggleCountsOne | src/components/AppraisalPrepCard.tsx:46-56 | with distinct ids, ticking an unticked task adds exactly one to the count |
| Checklist.CompletedTitles | src/components/LenderPacketCard.tsx:74 | as many titles as ticked items; each is a ticked item's title and every ticked item's title appears |
| Checklist.CompletedTitlesAppend | src/components/LenderPacketCard.tsx:74 | the titles of a concatenation are the first part's titles followed by the second's, so list order and repeats are kept |
| Checklist.CompletedTitlesSingle | src/components/LenderPacketCard.tsx:74 | one task contributes its title iff it is ticked |
| Checklist.AllCompleteTitles | src/components/LenderPacketCard.tsx:63-74 | with every item ticked, the list is all titles in order |
| Checklist.FourTasks | src/components/PreApprovalCard.tsx:19-44 | a fresh checklist has four tasks with ids 1 to 4, distinct, none ticked |
| Checklist.TickEachOnce | src/components/AppraisalPrepCard.tsx:46-56 | ticking each of four fresh tasks once completes the list |
| CreditTuneUpCard.InitialTasks | src/components/CreditTuneUpCard.tsx:21-50 | four distinct unticked tasks with ids 1 to 4 and the card's four repair titles in order, so the count is 0 and continue is disabled |
| CreditTuneUpCard.PotentialScore | src/components/CreditTuneUpCard.tsx:63 | between the current score and 15 points per task above it, in steps of 15; equal to the current score iff nothing is ticked and at the top iff everything is |
| CreditTuneUpCard.PotentialWithinSixty | src/components/CreditTuneUpCard.tsx:61-63 | after any sequence of ticks and unticks on the card's four tasks, the projection is between the current score and 60 above it |
| CreditTuneUpCard.TickRaisesPotential | src/components/CreditTuneUpCard.tsx:52-63 | ticking an unticked task raises the projection by exactly 15 |
| LenderPacketCard.InitialItems | src/components/LenderPacketCard.tsx:27-52 | four distinct unticked items with ids 1 to 4 and the packet's four titles in order, so continue is disabled |
| LenderPacketCard.DownloadedDocuments | src/components/LenderPacketCard.tsx:66-76 | the downloaded titles number the ticked items, include every ticked title, and are all titles when everything is ticked |
| LenderPacketCard.DownloadedInListOrder | src/components/LenderPacketCard.tsx:74 | for any split a + [t] + b of the items, the downloaded list is a's list, then t's title iff t is ticked, then b's list |
| LenderPacketCard.DownloadedAfterTicking | src/components/LenderPacketCard.tsx:54-74 | a fresh packet downloads nothing; ticking all four downloads all four titles in order |
| PreApprovalCard.InitialTasks | src/components/PreApprovalCard.tsx:19-44 | four distinct unticked tasks with ids 1 to 4 and the card's four titles in order, count 0 |
| PreApprovalCard.ContinueAfterAllFour | src/components/PreApprovalCard.tsx:46-56 | continue unlocks after all four tasks are ticked, not after three |
| AppraisalPrepCard.InitialTasks | src/components/AppraisalPrepCard.tsx:19-44 | four distinct unticked tasks with ids 1 to 4 and the card's four titles in order, count 0 |
| AppraisalPrepCard.UntickRestores | src/components/AppraisalPrepCard.tsx:46-56 | ticking and unticking restores the card; ticking all four completes it |
| Signup.CanSubmitRequirements | src/pages/Signup.tsx:49-55 | submit is disabled for a password under 6 characters, a mismatched confirmation, an empty name or email, while submitting, or with an invalid non-empty phone |
| Signup.CanSubmit | src/pages/Signup.tsx:49-55 | the submit button is enabled iff name and email are non-empty, the phone is empty or valid, the password has at least 6 characters and matches its confirmation, and no submission is in progress |
| Signup.EmptyPhoneNeverBlocks | src/pages/Signup.tsx:52 | with an empty phone the validator's verdict does not matter |
| Signup.OnSubmit | src/pages/Signup.tsx:57-70 | rejected for the phone iff it is non-empty and invalid; else for mismatch iff the passwords differ; else sign-up is requested |
| Signup.EnabledSubmitSignsUp | src/pages/Signup.tsx:49-76 | whenever submit is enabled the handler requests the sign-up |
| Signup.HandlerSkipsLengthCheck | src/pages/Signup.tsx:67-76 | a matching 3-character password passes the handler although the button is disabled |

## Left out

- All arithmetic is exact: numbers are unbounded integers and exact reals, not IEEE-754 doubles. This covers the payment estimate, the normalisers, the weighted sum, the ETA and the timeline floors.
- Calculations.MonthlyPayment: the amortisation factor `r(1+r)^360/((1+r)^360-1)` is a parameter `af`, not computed with `Math.pow`.
- Calculations.CalculatePiti: the zip-code argument is not modelled, because the code never reads it.
- Calculations.AffordabilityFit: requires a non-zero income. For a zero income the code computes an infinite or not-a-number ratio.
- Calculations.ReservesPoints: requires a non-zero mid payment. For a zero mid payment the code computes an infinite or not-a-number month count.
- Calculations.CalculateReadinessScore: requires a non-zero income and mid payment (`Scorable`), for the same reason.
- Coach.HandleDocumentUpload: when a score is present, it requires the profile to be scorable (`Scorable`). It recomputes the score through CalculateReadinessScore and inherits that requirement.
- Calculations.CreditPoints: the credit score is an integer. Every producer in the application yields one: `parseInt` in the chat, or the defaults.
- Coach.GenerateResponse: step 6 requires the default-filled profile to be scorable. This excludes target prices so small that both ends of the payment band round to 0.
- Coach.GenerateResponse: the regular-expression extraction of numbers, zip codes and "not sure" is not modelled. Its results are the `Reply` input.
- Coach.GenerateResponse: message texts, ids, timestamps and the one-second reply delay are not modelled.
- Coach.CompletePhase: all five handlers are modelled as "record the phase, move on, boost".
  - The packet handler first recomputes the score with 100% completeness.
  - It then boosts the score it read before that recompute.
  - This model does not include the discarded recompute or React's state batching.
- Coach.BoostFor and TimelineCard.PhaseOf: the code looks names up in plain JavaScript objects. Inherited keys such as "constructor" are not modelled; names are compared against the tables only.
- Only the profile fields the engine reads are modelled. The id, email, role, household, first-time flag, goal type, relocation flag and target date are left out.
- Lenders carry only an id, a name and a location. Phone, e-mail, rating, specialties and the match note are display text.
- Signup.CanSubmitRequirements: password length is measured in characters; JavaScript measures UTF-16 code units. The phone validator is a parameter.
- Firebase sign-up, Google sign-in, Firestore profiles, routing, login and protected routes are not modelled. These are external services.
- Rendering, toasts and the simulated upload delay are not modelled. The same goes for the unrounded progress-bar width, dates on the timeline, the JSON file download, speech input and the static pages.
- The seed data's seven-entry document list is not modelled. Packet completeness uses the hard-coded 8 from the upload handler, and the document card uses its own four required types.

=== FILE: base.dfy ===
/** Shared vocabulary: an Option type, the JavaScript rounding functions on
    exact reals, and the `x || default` idiom the application uses for
    optional profile fields. */
module Base {

  datatype Option<+T> = None | Some(value: T)

  /** JavaScript `Math.round` on a finite number: round half up. */
  function Round(x: real): (r: int)
    ensures r as real - 0.5 <= x < r as real + 0.5
  {
    (x + 0.5).Floor
  }

  /** JavaScript `Math.ceil`. */
  function Ceil(x: real): (r: int)
    ensures x <= r as real < x + 1.0
  {
    -((-x).Floor)
  }

  /** JavaScript `Math.floor`. */
  function Floor(x: real): (r: int)
    ensures r as real <= x < r as real + 1.0
  {
    x.Floor
  }

  function Min(a: int, b: int): (r: int)
    ensures r <= a && r <= b && (r == a || r == b)
  {
    if a <= b then a else b
  }

  function Max(a: int, b: int): (r: int)
    ensures r >= a && r >= b && (r == a || r == b)
  {
    if a >= b then a else b
  }

  function MaxReal(a: real, b: real): (r: real)
    ensures r >= a && r >= b && (r == a || r == b)
  {
    if a >= b then a else b
  }

  /** `field || d` for an optional number: an absent field and a zero are both falsy. */
  function OrReal(o: Option<real>, d: real): (r: real)
    ensures o.Some? && o.value != 0.0 ==> r == o.value
    ensures (o.None? || o.value == 0.0) ==> r == d
  {
    if o.Some? && o.value != 0.0 then o.value else d
  }

  function OrInt(o: Option<int>, d: int): (r: int)
    ensures o.Some? && o.value != 0 ==> r == o.value
    ensures (o.None? || o.value == 0) ==> r == d
  {
    if o.Some? && o.value != 0 then o.value else d
  }

  /** `field || d` for an optional string: the empty string is falsy. */
  function OrText(o: Option<string>, d: string): (r: string)
    ensures o.Some? && o.value != "" ==> r == o.value
    ensures (o.None? || o.value == "") ==> r == d
  {
    if o.Some? && o.value != "" then o.value else d
  }

  /** Rounding never reverses the order of its arguments. */
  lemma RoundMonotonic(x: real, y: real)
    requires x <= y
    ensures Round(x) <= Round(y)
  {
  }

  lemma CeilMonotonic(x: real, y: real)
    requires x <= y
    ensures Ceil(x) <= Ceil(y)
  {
  }

  /** Rounding a value that lies in [lo, hi] for integers lo, hi stays in [lo, hi]. */
  lemma RoundWithin(x: real, lo: int, hi: int)
    requires lo as real <= x <= hi as real
    ensures lo <= Round(x) <= hi
  {
  }

  lemma RoundOfInt(n: int)
    ensures Round(n as real) == n
  {
  }
}

=== FILE: calculations.dfy ===
/** The readiness scoring and timeline engine: the payment estimator, the four
    sub-score normalisers, the weighted composite score, the weeks-to-ready
    projection and the seven-milestone timeline template. */
module Calculations {
  import opened Base

  const CreditThreshold: int := 640
  const CreditFloor: int := 580
  const AffordabilityMin: real := 0.28
  const AffordabilityMax: real := 0.38
  const DefaultDownPaymentPct: real := 3.0

  const WeightAffordability: int := 40
  const WeightCredit: int := 25
  const WeightReserves: int := 20
  const WeightPacket: int := 15

  /** A monthly payment band in whole currency units. */
  datatype Piti = Piti(low: int, high: int)

  /** The applicant fields the engine reads; every one of them may be absent. */
  datatype Profile = Profile(
    creditScore: Option<int>,
    incomeNet: Option<real>,
    debtsMin: Option<real>,
    savings: Option<real>,
    rent: Option<real>,
    cityZip: Option<string>,
    targetPriceMin: Option<real>,
    targetPriceMax: Option<real>,
    dpPct: Option<real>)

  datatype Component = Component(score: int, weight: int)

  datatype Breakdown = Breakdown(
    affordability: Component,
    credit: Component,
    reserves: Component,
    packet: Component)

  datatype ReadinessScore = ReadinessScore(
    score: int,
    pitiLow: int,
    pitiHigh: int,
    etaWeeks: int,
    affordabilityFit: int,
    creditBandPoints: int,
    reservesMonths: real,
    pktPoints: int,
    breakdown: Breakdown)

  // ---------------------------------------------------------------------------
  // Payment estimator

  /** Principal and interest for a 30-year loan at 7%, plus property tax
      (0.85% a year) and insurance (0.35% a year), per month. `af` is the
      amortisation factor r(1+r)^360/((1+r)^360-1) for r = 0.07/12. */
  function MonthlyPayment(price: real, dpPct: real, af: real): (m: real)
    ensures m == price * (1.0 - dpPct / 100.0) * af + price * 0.001
    ensures dpPct == 100.0 ==> m == price * 0.001
    ensures price == 0.0 ==> m == 0.0
    ensures price >= 0.0 && dpPct <= 100.0 && af > 0.0 ==> m >= 0.0
  {
    var loan := price * (1.0 - dpPct / 100.0);
    assert price >= 0.0 && dpPct <= 100.0 && af > 0.0 ==> loan >= 0.0 && loan * af >= 0.0 by {
      if price >= 0.0 && dpPct <= 100.0 && af > 0.0 {
        NonNegativeProduct(price, 1.0 - dpPct / 100.0);
        NonNegativeProduct(loan, af);
      }
    }
    loan * af + price * 0.0085 / 12.0 + price * 0.0035 / 12.0
  }

  /** The payment is proportional to the price. */
  lemma {:induction false} MonthlyPaymentScales(price: real, k: real, dpPct: real, af: real)
    ensures MonthlyPayment(k * price, dpPct, af) == k * MonthlyPayment(price, dpPct, af)
  {
    var loan := price * (1.0 - dpPct / 100.0);
    assert (k * price) * (1.0 - dpPct / 100.0) == k * loan;
    assert (k * loan) * af == k * (loan * af);
  }

  lemma NonNegativeProduct(x: real, y: real)
    requires x >= 0.0 && y >= 0.0
    ensures x * y >= 0.0
  {
  }

  /** The payment band: the monthly payment widened by 5% each way, each end
      rounded to a whole amount. */
  function CalculatePiti(price: real, dpPct: real, af: real): (p: Piti)
    ensures p.low as real - 0.5 <= 0.95 * MonthlyPayment(price, dpPct, af) < p.low as real + 0.5
    ensures p.high as real - 0.5 <= 1.05 * MonthlyPayment(price, dpPct, af) < p.high as real + 0.5
    ensures MonthlyPayment(price, dpPct, af) >= 0.0 ==> 0 <= p.low <= p.high
    ensures price >= 0.0 && 0.0 <= dpPct <= 100.0 && af > 0.0 ==> 0 <= p.low <= p.high
    ensures price == 0.0 ==> p == Piti(0, 0)
  {
    var m := MonthlyPayment(price, dpPct, af);
    assert m >= 0.0 ==> 0 <= Round(0.95 * m) <= Round(1.05 * m) by {
      if m >= 0.0 {
        RoundMonotonic(0.0, 0.95 * m);
        RoundMonotonic(0.95 * m, 1.05 * m);
      }
    }
    Piti(Round(0.95 * m), Round(1.05 * m))
  }

  /** The band is reversed only by a negative payment, and a negative payment
      can reverse it: a negative price with no down payment does. */
  lemma PitiReversedOnlyWhenNegative(price: real, dpPct: real, af: real)
    ensures CalculatePiti(price, dpPct, af).low > CalculatePiti(price, dpPct, af).high
            ==> MonthlyPayment(price, dpPct, af) < 0.0
    ensures CalculatePiti(-100000.0, 0.0, 0.006) == Piti(-665, -735)
  {
    var m := MonthlyPayment(-100000.0, 0.0, 0.006);
    assert m == -700.0;
    assert Round(0.95 * m) == -665;
    assert Round(1.05 * m) == -735;
  }

  // ---------------------------------------------------------------------------
  // Sub-score normalisers

  /** Affordability of a housing-cost-to-income ratio: full marks below 28%,
      none above 38%, linear in between. */
  function AffordabilityOfRatio(ratio: real): (r: int)
    ensures 0 <= r <= 100
    ensures ratio <= AffordabilityMin ==> r == 100
    ensures ratio >= AffordabilityMax ==> r == 0
    ensures AffordabilityMin <= ratio <= AffordabilityMax
            ==> r as real - 0.5 <= 1000.0 * (AffordabilityMax - ratio) < r as real + 0.5
  {
    if ratio < AffordabilityMin then 100
    else if ratio > AffordabilityMax then 0
    else
      var range := AffordabilityMax - AffordabilityMin;
      var position := ratio - AffordabilityMin;
      RoundWithin(100.0 * (1.0 - position / range), 0, 100);
      Round(100.0 * (1.0 - position / range))
  }

  function AffordabilityFit(pitiMid: real, netIncome: real): (r: int)
    requires netIncome != 0.0
    ensures 0 <= r <= 100
    ensures pitiMid / netIncome < AffordabilityMin ==> r == 100
    ensures pitiMid / netIncome > AffordabilityMax ==> r == 0
    ensures AffordabilityMin <= pitiMid / netIncome <= AffordabilityMax
            ==> r as real - 0.5 <= 1000.0 * (AffordabilityMax - pitiMid / netIncome) < r as real + 0.5
  {
    AffordabilityOfRatio(pitiMid / netIncome)
  }

  /** A higher cost-to-income ratio never scores better. */
  lemma AffordabilityNonIncreasing(ratio1: real, ratio2: real)
    requires ratio1 <= ratio2
    ensures AffordabilityOfRatio(ratio1) >= AffordabilityOfRatio(ratio2)
  {
    if AffordabilityMin <= ratio1 && ratio2 <= AffordabilityMax {
      RoundMonotonic(100.0 * (1.0 - (ratio2 - AffordabilityMin) / (AffordabilityMax - AffordabilityMin)),
                     100.0 * (1.0 - (ratio1 - AffordabilityMin) / (AffordabilityMax - AffordabilityMin)));
    }
  }

  /** Credit points: full marks from 640, none up to and including 580,
      linear in between. */
  function CreditPoints(creditScore: int): (r: int)
    ensures 0 <= r <= 100
    ensures r == 100 <==> creditScore >= CreditThreshold
    ensures r == 0 <==> creditScore <= CreditFloor
    ensures CreditFloor <= creditScore < CreditThreshold
            ==> r as real - 0.5 <= (creditScore - CreditFloor) as real * 5.0 / 3.0 < r as real + 0.5
  {
    if creditScore >= CreditThreshold then 100
    else if creditScore < CreditFloor then 0
    else
      var x := ((creditScore - CreditFloor) as real / (CreditThreshold - CreditFloor) as real) * 100.0;
      RoundWithin(x, 0, 100);
      if creditScore > CreditFloor then
        RoundMonotonic(100.0 / 60.0, x);
        assert Round(x) >= 1;
        RoundMonotonic(x, 5900.0 / 60.0);
        assert Round(x) <= 99;
        Round(x)
      else
        Round(x)
  }

  /** A higher credit score never earns fewer points. */
  lemma CreditNonDecreasing(s1: int, s2: int)
    requires s1 <= s2
    ensures CreditPoints(s1) <= CreditPoints(s2)
  {
    if CreditFloor <= s1 && s2 < CreditThreshold {
      RoundMonotonic(((s1 - CreditFloor) as real / 60.0) * 100.0, ((s2 - CreditFloor) as real / 60.0) * 100.0);
    }
  }

  lemma CreditPointsAt630()
    ensures CreditPoints(630) == 83
  {
  }

  /** Reserve points from months of payment covered by savings plus assistance:
      full marks at two months, none at zero or below. */
  function ReservesPoints(savings: real, dpaAmount: real, pitiMid: real): (r: int)
    requires pitiMid != 0.0
    ensures 0 <= r <= 100
    ensures (savings + dpaAmount) / pitiMid >= 2.0 ==> r == 100
    ensures (savings + dpaAmount) / pitiMid <= 0.0 ==> r == 0
    ensures 0.0 < (savings + dpaAmount) / pitiMid < 2.0
            ==> r as real - 0.5 <= 50.0 * ((savings + dpaAmount) / pitiMid) < r as real + 0.5
  {
    var months := (savings + dpaAmount) / pitiMid;
    if months >= 2.0 then 100
    else if months <= 0.0 then 0
    else
      RoundWithin((months / 2.0) * 100.0, 0, 100);
      Round((months / 2.0) * 100.0)
  }

  lemma DivisionMonotonic(x: real, y: real, d: real)
    requires x <= y && d > 0.0
    ensures x / d <= y / d
  {
    assert y / d - x / d == (y - x) / d;
  }

  /** For a fixed positive payment, more cash on hand never earns fewer points. */
  lemma ReservesNonDecreasing(savings1: real, dpa1: real, savings2: real, dpa2: real, pitiMid: real)
    requires pitiMid > 0.0
    requires savings1 + dpa1 <= savings2 + dpa2
    ensures ReservesPoints(savings1, dpa1, pitiMid) <= ReservesPoints(savings2, dpa2, pitiMid)
  {
    var m1 := (savings1 + dpa1) / pitiMid;
    var m2 := (savings2 + dpa2) / pitiMid;
    DivisionMonotonic(savings1 + dpa1, savings2 + dpa2, pitiMid);
    if 0.0 < m1 && m2 < 2.0 {
      RoundMonotonic((m1 / 2.0) * 100.0, (m2 / 2.0) * 100.0);
    }
  }

  /** Packet points are the completeness percentage rounded. */
  function PacketPoints(completeness: real): (r: int)
    ensures r as real - 0.5 <= completeness < r as real + 0.5
    ensures 0.0 <= completeness <= 100.0 ==> 0 <= r <= 100
  {
    if 0.0 <= completeness <= 100.0 then RoundWithin(completeness, 0, 100); Round(completeness)
    else Round(completeness)
  }

  // ---------------------------------------------------------------------------
  // Composite score

  /** The composite score a breakdown stands for: each sub-score weighted by
      its weight out of 100, summed and rounded. */
  function Composite(b: Breakdown): int
  {
    Round((b.affordability.score * b.affordability.weight
           + b.credit.score * b.credit.weight
           + b.reserves.score * b.reserves.weight
           + b.packet.score * b.packet.weight) as real / 100.0)
  }

  predicate InPercentRange(x: int)
  {
    0 <= x <= 100
  }

  /** The four weights of a breakdown are the fixed 40/25/20/15 split. */
  predicate StandardWeights(b: Breakdown)
  {
    && b.affordability.weight == WeightAffordability
    && b.credit.weight == WeightCredit
    && b.reserves.weight == WeightReserves
    && b.packet.weight == WeightPacket
  }

  /** The flat 0.40/0.25/0.20/0.15 sum is the breakdown's weighted composite. */
  lemma WeightedSumIsComposite(b: Breakdown)
    requires StandardWeights(b)
    ensures Composite(b) == Round(b.affordability.score as real * 0.40 + b.credit.score as real * 0.25
                                  + b.reserves.score as real * 0.20 + b.packet.score as real * 0.15)
  {
  }

  lemma QuotientTimesDivisor(x: real, d: real)
    requires d != 0.0
    ensures (x / d) * d == x
  {
  }

  lemma WeightsSumToHundred()
    ensures WeightAffordability + WeightCredit + WeightReserves + WeightPacket == 100
  {
  }

  /** With the standard weights and sub-scores in [0, 100], the composite is in [0, 100]. */
  lemma CompositeInRange(b: Breakdown)
    requires StandardWeights(b)
    requires InPercentRange(b.affordability.score) && InPercentRange(b.credit.score)
    requires InPercentRange(b.reserves.score) && InPercentRange(b.packet.score)
    ensures 0 <= Composite(b) <= 100
  {
    var sum := b.affordability.score * 40 + b.credit.score * 25 + b.reserves.score * 20 + b.packet.score * 15;
    assert 0 <= sum <= 10000;
    RoundWithin(sum as real / 100.0, 0, 100);
  }

  // ---------------------------------------------------------------------------
  // Profile-derived inputs

  /** The target price is the midpoint of the price range; a missing end counts as 0. */
  function TargetPrice(p: Profile): (price: real)
    ensures price * 2.0 == OrReal(p.targetPriceMin, 0.0) + OrReal(p.targetPriceMax, 0.0)
    ensures OrReal(p.targetPriceMin, 0.0) <= OrReal(p.targetPriceMax, 0.0)
            ==> OrReal(p.targetPriceMin, 0.0) <= price <= OrReal(p.targetPriceMax, 0.0)
    ensures p.targetPriceMin == p.targetPriceMax ==> price == OrReal(p.targetPriceMin, 0.0)
  {
    (OrReal(p.targetPriceMin, 0.0) + OrReal(p.targetPriceMax, 0.0)) / 2.0
  }

  /** The down-payment percentage; a missing or zero one counts as 3%. */
  function DownPaymentPct(p: Profile): (pct: real)
    ensures p.dpPct.Some? && p.dpPct.value != 0.0 ==> pct == p.dpPct.value
    ensures p.dpPct.None? || p.dpPct.value == 0.0 ==> pct == 3.0
  {
    OrReal(p.dpPct, DefaultDownPaymentPct)
  }

  function ProfilePiti(p: Profile, af: real): Piti
  {
    CalculatePiti(TargetPrice(p), DownPaymentPct(p), af)
  }

  /** The midpoint of the payment band. */
  function PitiMid(p: Profile, af: real): (mid: real)
    ensures mid * 2.0 == (ProfilePiti(p, af).low + ProfilePiti(p, af).high) as real
    ensures ProfilePiti(p, af).low <= ProfilePiti(p, af).high
            ==> ProfilePiti(p, af).low as real <= mid <= ProfilePiti(p, af).high as real
    ensures TargetPrice(p) >= 0.0 && 0.0 <= DownPaymentPct(p) <= 100.0 && af > 0.0 ==> mid >= 0.0
  {
    var piti := ProfilePiti(p, af);
    (piti.low + piti.high) as real / 2.0
  }

  /** The two divisors of the score are non-zero: income for affordability and
      the mid payment for reserves. */
  predicate Scorable(p: Profile, af: real)
  {
    OrReal(p.incomeNet, 0.0) != 0.0 && PitiMid(p, af) != 0.0
  }

  // ---------------------------------------------------------------------------
  // Weeks-to-ready projection

  /** Cash still needed: down payment, 3% closing costs and two months of
      payments, less savings and assistance, never below zero. */
  function CashGap(p: Profile, af: real, dpaAmount: real): (g: real)
    ensures g >= 0.0
    ensures g == 0.0 || g == TotalCashNeeded(p, af) - OrReal(p.savings, 0.0) - dpaAmount
    ensures g >= TotalCashNeeded(p, af) - OrReal(p.savings, 0.0) - dpaAmount
  {
    MaxReal(0.0, TotalCashNeeded(p, af) - OrReal(p.savings, 0.0) - dpaAmount)
  }

  /** Cash to close: down payment plus 3% closing costs on the target price,
      plus two months of the mid payment held in reserve. */
  function TotalCashNeeded(p: Profile, af: real): (cash: real)
    ensures cash - PitiMid(p, af) * 2.0 == TargetPrice(p) * (DownPaymentPct(p) / 100.0 + 0.03)
    ensures TargetPrice(p) >= 0.0 && 0.0 <= DownPaymentPct(p) <= 100.0 && af > 0.0
            ==> cash >= PitiMid(p, af) * 2.0 >= 0.0
  {
    var price := TargetPrice(p);
    var downPayment := price * (DownPaymentPct(p) / 100.0);
    var closingCosts := price * 0.03;
    var reservesNeeded := PitiMid(p, af) * 2.0;
    downPayment + closingCosts + reservesNeeded
  }

  /** Weekly saving rate: monthly surplus over 4.33 weeks, at least 100. */
  function WeeklySaving(p: Profile): (w: real)
    ensures w >= 100.0
    ensures w * 4.33 >= OrReal(p.incomeNet, 0.0) - OrReal(p.rent, 0.0) - OrReal(p.debtsMin, 0.0)
    ensures w == 100.0 || w * 4.33 == OrReal(p.incomeNet, 0.0) - OrReal(p.rent, 0.0) - OrReal(p.debtsMin, 0.0)
  {
    var surplus := (OrReal(p.incomeNet, 0.0) - OrReal(p.rent, 0.0) - OrReal(p.debtsMin, 0.0)) / 4.33;
    MaxReal(surplus, 100.0)
  }

  /** Weeks of saving to close the cash gap: the fewest whole weeks whose
      savings cover it, and zero exactly when there is no gap. */
  function CashWeeks(p: Profile, af: real, dpaAmount: real): (w: int)
    ensures w >= 0
    ensures w == 0 <==> CashGap(p, af, dpaAmount) == 0.0
    ensures w > 0 ==> (w - 1) as real * WeeklySaving(p) < CashGap(p, af, dpaAmount) <= w as real * WeeklySaving(p)
  {
    var gap := CashGap(p, af, dpaAmount);
    var rate := WeeklySaving(p);
    if gap > 0.0 then
      var w := Ceil(gap / rate);
      CeilCovers(gap, rate);
      w
    else 0
  }

  /** Ceil(gap / rate) whole weeks at `rate` cover `gap`, one fewer does not. */
  lemma CeilCovers(gap: real, rate: real)
    requires gap > 0.0 && rate > 0.0
    ensures Ceil(gap / rate) >= 1
    ensures (Ceil(gap / rate) - 1) as real * rate < gap <= Ceil(gap / rate) as real * rate
  {
    var q := gap / rate;
    var c := Ceil(q);
    assert q * rate == gap;
    assert q > 0.0;
    assert c as real >= q;
    assert (c - 1) as real < q;
    MultiplyMonotonic(q, c as real, rate);
    MultiplyStrict((c - 1) as real, q, rate);
  }

  lemma MultiplyMonotonic(x: real, y: real, k: real)
    requires x <= y && k > 0.0
    ensures x * k <= y * k
  {
    assert y * k - x * k == (y - x) * k;
  }

  lemma MultiplyStrict(x: real, y: real, k: real)
    requires x < y && k > 0.0
    ensures x * k < y * k
  {
    assert y * k - x * k == (y - x) * k;
  }

  /** Six weeks of credit repair exactly when the score is under 640. */
  function CreditWeeks(p: Profile): (w: int)
    ensures w == 6 <==> OrInt(p.creditScore, 0) < CreditThreshold
    ensures w == 0 <==> OrInt(p.creditScore, 0) >= CreditThreshold
  {
    if OrInt(p.creditScore, 0) >= CreditThreshold then 0 else 6
  }

  /** About one week per missing 10% of the packet. */
  function PacketWeeks(completeness: real): (w: int)
    ensures (w - 1) as real * 10.0 < 100.0 - completeness <= w as real * 10.0
    ensures 0.0 <= completeness <= 100.0 ==> 0 <= w <= 10
  {
    var w := Ceil((100.0 - completeness) / 10.0);
    if 0.0 <= completeness <= 100.0 then
      CeilMonotonic((100.0 - completeness) / 10.0, 10.0);
      w
    else w
  }

  /** The binding constraint among cash, credit and packet decides the ETA. */
  function EtaWeeks(p: Profile, af: real, dpaAmount: real, completeness: real): (eta: int)
    ensures eta >= 0
    ensures eta >= CashWeeks(p, af, dpaAmount) && eta >= CreditWeeks(p) && eta >= PacketWeeks(completeness)
    ensures eta == CashWeeks(p, af, dpaAmount) || eta == CreditWeeks(p) || eta == PacketWeeks(completeness)
  {
    Max(Max(CashWeeks(p, af, dpaAmount), CreditWeeks(p)), PacketWeeks(completeness))
  }

  // ---------------------------------------------------------------------------
  // The readiness score

  function CalculateReadinessScore(p: Profile, dpaAmount: real, completeness: real, af: real): (rs: ReadinessScore)
    requires Scorable(p, af)
    ensures StandardWeights(rs.breakdown)
    ensures rs.score == Composite(rs.breakdown)
    ensures rs.breakdown.affordability.score == rs.affordabilityFit
    ensures rs.breakdown.credit.score == rs.creditBandPoints
    ensures rs.breakdown.packet.score == rs.pktPoints
    ensures rs.affordabilityFit == AffordabilityFit(PitiMid(p, af), OrReal(p.incomeNet, 0.0))
    ensures rs.pktPoints == PacketPoints(completeness)
    ensures InPercentRange(rs.affordabilityFit) && InPercentRange(rs.creditBandPoints)
    ensures InPercentRange(rs.breakdown.reserves.score)
    ensures 0.0 <= completeness <= 100.0 ==> InPercentRange(rs.pktPoints) && InPercentRange(rs.score)
    ensures rs.creditBandPoints == CreditPoints(OrInt(p.creditScore, 0))
    ensures rs.breakdown.reserves.score == ReservesPoints(OrReal(p.savings, 0.0), dpaAmount, PitiMid(p, af))
    ensures rs.reservesMonths * PitiMid(p, af) == OrReal(p.savings, 0.0)
    ensures rs.pitiLow == ProfilePiti(p, af).low && rs.pitiHigh == ProfilePiti(p, af).high
    ensures rs.etaWeeks == EtaWeeks(p, af, dpaAmount, completeness)
  {
    var piti := ProfilePiti(p, af);
    var pitiMid := PitiMid(p, af);
    var savings := OrReal(p.savings, 0.0);
    QuotientTimesDivisor(savings, pitiMid);
    Assemble(AffordabilityFit(pitiMid, OrReal(p.incomeNet, 0.0)), CreditPoints(OrInt(p.creditScore, 0)),
             ReservesPoints(savings, dpaAmount, pitiMid), PacketPoints(completeness), completeness,
             piti, EtaWeeks(p, af, dpaAmount, completeness), savings / pitiMid)
  }

  /** The score record from its four sub-scores: the breakdown carries the
      standard weights and the score is their rounded weighted sum. */
  function Assemble(affordability: int, credit: int, reserves: int, packet: int, completeness: real,
                    piti: Piti, eta: int, months: real): (rs: ReadinessScore)
    requires InPercentRange(affordability) && InPercentRange(credit) && InPercentRange(reserves)
    requires 0.0 <= completeness <= 100.0 ==> InPercentRange(packet)
    ensures StandardWeights(rs.breakdown) && rs.score == Composite(rs.breakdown)
    ensures rs.score == Round(affordability as real * 0.40 + credit as real * 0.25
                              + reserves as real * 0.20 + packet as real * 0.15)
    ensures rs.affordabilityFit == rs.breakdown.affordability.score == affordability
    ensures rs.creditBandPoints == rs.breakdown.credit.score == credit
    ensures rs.breakdown.reserves.score == reserves
    ensures rs.pktPoints == rs.breakdown.packet.score == packet
    ensures 0.0 <= completeness <= 100.0 ==> InPercentRange(rs.score)
    ensures rs.pitiLow == piti.low && rs.pitiHigh == piti.high && rs.etaWeeks == eta && rs.reservesMonths == months
  {
    var b := Breakdown(
      Component(affordability, WeightAffordability),
      Component(credit, WeightCredit),
      Component(reserves, WeightReserves),
      Component(packet, WeightPacket));
    WeightedSumIsComposite(b);
    if 0.0 <= completeness <= 100.0 then
      CompositeInRange(b);
      ReadinessScore(Composite(b), piti.low, piti.high, eta, affordability, credit, months, packet, b)
    else
      ReadinessScore(Composite(b), piti.low, piti.high, eta, affordability, credit, months, packet, b)
  }

  /** A missing, zero or explicit 3% down payment all give the same score. */
  lemma MissingDownPaymentIsThreePercent(p: Profile, dpaAmount: real, completeness: real, af: real)
    requires Scorable(p.(dpPct := None), af)
    ensures Scorable(p.(dpPct := Some(0.0)), af) && Scorable(p.(dpPct := Some(3.0)), af)
    ensures CalculateReadinessScore(p.(dpPct := None), dpaAmount, completeness, af)
         == CalculateReadinessScore(p.(dpPct := Some(0.0)), dpaAmount, completeness, af)
         == CalculateReadinessScore(p.(dpPct := Some(3.0)), dpaAmount, completeness, af)
  {
    var q1, q2, q3 := p.(dpPct := None), p.(dpPct := Some(0.0)), p.(dpPct := Some(3.0));
    assert DownPaymentPct(q1) == DownPaymentPct(q2) == DownPaymentPct(q3) == DefaultDownPaymentPct;
    assert TargetPrice(q1) == TargetPrice(q2) == TargetPrice(q3);
    assert ProfilePiti(q1, af) == ProfilePiti(q2, af) == ProfilePiti(q3, af);
    assert PitiMid(q1, af) == PitiMid(q2, af) == PitiMid(q3, af);
    assert TotalCashNeeded(q1, af) == TotalCashNeeded(q2, af) == TotalCashNeeded(q3, af);
    assert CashWeeks(q1, af, dpaAmount) == CashWeeks(q2, af, dpaAmount) == CashWeeks(q3, af, dpaAmount);
    assert EtaWeeks(q1, af, dpaAmount, completeness) == EtaWeeks(q2, af, dpaAmount, completeness)
        == EtaWeeks(q3, af, dpaAmount, completeness);
  }

  /** Assistance money counts towards reserve points but not towards the
      reported months of reserves. */
  lemma ReservesMonthsIgnoreAssistance(p: Profile, dpa1: real, dpa2: real, completeness: real, af: real)
    requires Scorable(p, af)
    ensures CalculateReadinessScore(p, dpa1, completeness, af).reservesMonths
         == CalculateReadinessScore(p, dpa2, completeness, af).reservesMonths
  {
  }

  // ---------------------------------------------------------------------------
  // Milestone timeline

  datatype Status = Completed | Current | Upcoming

  datatype Milestone = Milestone(id: string, title: string, weeks: int, status: Status)

  const MilestoneIds: seq<string> := ["budget", "dpa", "docs", "credit", "packet", "preapproval", "appraisal"]

  function Weeks(ms: seq<Milestone>): (ws: seq<int>)
    ensures |ws| == |ms| && forall i :: 0 <= i < |ms| ==> ws[i] == ms[i].weeks
  {
    seq(|ms|, i requires 0 <= i < |ms| => ms[i].weeks)
  }

  /** The seven-milestone template scaled by the ETA. */
  function GenerateTimeline(etaWeeks: int): (ms: seq<Milestone>)
    ensures |ms| == |MilestoneIds| == 7
    ensures forall i :: 0 <= i < 7 ==> ms[i].id == MilestoneIds[i]
    ensures ms[0].status == Completed && ms[1].status == Current
    ensures forall i :: 2 <= i < 7 ==> ms[i].status == Upcoming
    ensures etaWeeks >= 0 ==> forall i, j :: 2 <= i <= j < 7 ==> ms[i].weeks <= ms[j].weeks
    ensures etaWeeks >= 0 ==> forall i :: 0 <= i < 7 ==> 0 <= ms[i].weeks <= etaWeeks + 2
    ensures ms[0].weeks == 0 && ms[1].weeks == 1
    ensures ms[5].weeks == etaWeeks && ms[6].weeks == etaWeeks + 2
    ensures ms[2].weeks <= 3 && (etaWeeks as real * 0.3 >= 3.0 ==> ms[2].weeks == 3)
    ensures etaWeeks as real * 0.3 < 3.0 ==> ms[2].weeks as real <= etaWeeks as real * 0.3 < ms[2].weeks as real + 1.0
    ensures ms[3].weeks <= 6 && (etaWeeks as real * 0.5 >= 6.0 ==> ms[3].weeks == 6)
    ensures etaWeeks as real * 0.5 < 6.0 ==> ms[3].weeks as real <= etaWeeks as real * 0.5 < ms[3].weeks as real + 1.0
    ensures ms[4].weeks as real <= etaWeeks as real * 0.8 < ms[4].weeks as real + 1.0
  {
    var e := etaWeeks as real;
    var template := [
      Milestone("budget", "Budget Set", 0, Upcoming),
      Milestone("dpa", "DPA Pre-Check", 1, Upcoming),
      Milestone("docs", "Docs 80%", Min(3, Floor(e * 0.3)), Upcoming),
      Milestone("credit", "Credit Tune-Up", Min(6, Floor(e * 0.5)), Upcoming),
      Milestone("packet", "Lender-Ready Packet", Floor(e * 0.8), Upcoming),
      Milestone("preapproval", "Pre-Approval Window", etaWeeks, Upcoming),
      Milestone("appraisal", "Appraisal Prep", etaWeeks + 2, Upcoming)
    ];
    var ms := seq(7, i requires 0 <= i < 7 =>
      template[i].(status := if i == 0 then Completed else if i == 1 then Current else Upcoming));
    if etaWeeks >= 0 then
      assert Floor(e * 0.3) <= Floor(e * 0.5) <= Floor(e * 0.8) <= etaWeeks by {
        RoundFloorMonotonic(e * 0.3, e * 0.5);
        RoundFloorMonotonic(e * 0.5, e * 0.8);
        RoundFloorMonotonic(e * 0.8, e);
      }
      ms
    else ms
  }

  lemma RoundFloorMonotonic(x: real, y: real)
    requires x <= y
    ensures Floor(x) <= Floor(y)
  {
  }

  lemma TimelineForTenWeeks()
    ensures Weeks(GenerateTimeline(10)) == [0, 1, 3, 5, 8, 10, 12]
  {
    var ms := GenerateTimeline(10);
    assert Floor(10.0 * 0.3) == 3;
    assert Floor(10.0 * 0.5) == 5;
    assert Floor(10.0 * 0.8) == 8;
  }

  /** The fixed one-week assistance check comes after the documents milestone
      exactly when the ETA is under four weeks. */
  lemma DpaAfterDocsIff(etaWeeks: int)
    requires etaWeeks >= 0
    ensures GenerateTimeline(etaWeeks)[1].weeks > GenerateTimeline(etaWeeks)[2].weeks <==> etaWeeks < 4
  {
    var e := etaWeeks as real;
    if etaWeeks < 4 {
      assert e * 0.3 < 1.2;
      assert Floor(e * 0.3) <= 1;
      assert Floor(e * 0.3) < 1;
    } else {
      assert e * 0.3 >= 1.2;
      RoundFloorMonotonic(1.0, e * 0.3);
    }
  }
}

=== FILE: checklist.dfy ===
/** The tick-box checklists of the credit, lender-packet, pre-approval and
    appraisal cards: they share one toggle rule and one completion rule. */
module Checklist {

  datatype Task = Task(id: string, title: string, completed: bool)

  /** Flip the `completed` flag of every task with the given id. */
  function Toggle(ts: seq<Task>, id: string): (r: seq<Task>)
    ensures |r| == |ts|
    ensures forall i :: 0 <= i < |ts| ==> r[i].id == ts[i].id && r[i].title == ts[i].title
    ensures forall i :: 0 <= i < |ts| && ts[i].id != id ==> r[i] == ts[i]
    ensures forall i :: 0 <= i < |ts| && ts[i].id == id ==> r[i].completed == !ts[i].completed
  {
    seq(|ts|, i requires 0 <= i < |ts| => if ts[i].id == id then ts[i].(completed := !ts[i].completed) else ts[i])
  }

  /** Toggling the same id twice restores the list. */
  lemma ToggleTwice(ts: seq<Task>, id: string)
    ensures Toggle(Toggle(ts, id), id) == ts
  {
    var r := Toggle(Toggle(ts, id), id);
    assert forall i :: 0 <= i < |ts| ==> r[i] == ts[i];
  }

  /** Toggling an id no task has changes nothing. */
  lemma ToggleUnknown(ts: seq<Task>, id: string)
    requires forall i :: 0 <= i < |ts| ==> ts[i].id != id
    ensures Toggle(ts, id) == ts
  {
  }

  function CompletedCount(ts: seq<Task>): (n: nat)
    ensures n <= |ts|
  {
    if |ts| == 0 then 0 else (if ts[0].completed then 1 else 0) + CompletedCount(ts[1..])
  }

  /** The card's continue button: the ticked count equals the number of tasks,
      which is exactly when every task is ticked. */
  predicate IsAllComplete(ts: seq<Task>): (b: bool)
    ensures b <==> forall i :: 0 <= i < |ts| ==> ts[i].completed
  {
    CountFullIff(ts);
    CompletedCount(ts) == |ts|
  }

  /** The count reaches the length exactly when every task is ticked. */
  lemma {:induction false} CountFullIff(ts: seq<Task>)
    ensures CompletedCount(ts) == |ts| <==> forall i :: 0 <= i < |ts| ==> ts[i].completed
  {
    if |ts| > 0 {
      CountFullIff(ts[1..]);
      assert forall i :: 1 <= i < |ts| ==> ts[1..][i - 1] == ts[i];
    }
  }

  predicate DistinctIds(ts: seq<Task>)
  {
    forall i, j :: 0 <= i < j < |ts| ==> ts[i].id != ts[j].id
  }

  /** With distinct ids, ticking an unticked task adds exactly one to the count. */
  lemma {:induction false} ToggleCountsOne(ts: seq<Task>, k: nat)
    requires DistinctIds(ts) && k < |ts| && !ts[k].completed
    ensures CompletedCount(Toggle(ts, ts[k].id)) == CompletedCount(ts) + 1
  {
    var r := Toggle(ts, ts[k].id);
    if k == 0 {
      assert r[1..] == ts[1..];
    } else {
      assert r[1..] == Toggle(ts[1..], ts[k].id);
      assert ts[1..][k - 1] == ts[k];
      ToggleCountsOne(ts[1..], k - 1);
    }
  }

  /** Titles of the ticked tasks, in list order. */
  function CompletedTitles(ts: seq<Task>): (r: seq<string>)
    ensures |r| == CompletedCount(ts)
    ensures forall t :: t in r ==> exists i :: 0 <= i < |ts| && ts[i].completed && ts[i].title == t
    ensures forall i :: 0 <= i < |ts| && ts[i].completed ==> ts[i].title in r
  {
    if |ts| == 0 then []
    else
      var rest := CompletedTitles(ts[1..]);
      assert forall i :: 1 <= i < |ts| ==> ts[i] == ts[1..][i - 1];
      if ts[0].completed then [ts[0].title] + rest else rest
  }

  /** Ticked titles keep list order: the titles of a concatenation are the
      titles of its first part followed by those of its second. */
  lemma {:induction false} CompletedTitlesAppend(a: seq<Task>, b: seq<Task>)
    ensures CompletedTitles(a + b) == CompletedTitles(a) + CompletedTitles(b)
  {
    if |a| == 0 {
      assert a + b == b;
    } else {
      assert (a + b)[0] == a[0];
      assert (a + b)[1..] == a[1..] + b;
      CompletedTitlesAppend(a[1..], b);
    }
  }

  /** A single task contributes its title exactly when it is ticked. */
  lemma CompletedTitlesSingle(t: Task)
    ensures CompletedTitles([t]) == if t.completed then [t.title] else []
  {
    assert [t][1..] == [];
  }

  function Titles(ts: seq<Task>): (r: seq<string>)
    ensures |r| == |ts| && forall i :: 0 <= i < |ts| ==> r[i] == ts[i].title
  {
    seq(|ts|, i requires 0 <= i < |ts| => ts[i].title)
  }

  /** With every task ticked, the titles of the ticked tasks are all the titles. */
  lemma {:induction false} AllCompleteTitles(ts: seq<Task>)
    requires forall i :: 0 <= i < |ts| ==> ts[i].completed
    ensures CompletedTitles(ts) == Titles(ts)
  {
    if |ts| > 0 {
      AllCompleteTitles(ts[1..]);
      assert Titles(ts) == [ts[0].title] + Titles(ts[1..]);
    }
  }

  /** Four fresh tasks with ids "1" to "4", none ticked. */
  function FourTasks(t1: string, t2: string, t3: string, t4: string): (ts: seq<Task>)
    ensures |ts| == 4 && DistinctIds(ts) && CompletedCount(ts) == 0
    ensures forall i :: 0 <= i < 4 ==> !ts[i].completed
    ensures ts[0].id == "1" && ts[1].id == "2" && ts[2].id == "3" && ts[3].id == "4"
  {
    var ts := [Task("1", t1, false), Task("2", t2, false), Task("3", t3, false), Task("4", t4, false)];
    NoneTicked(ts);
    ts
  }

  lemma {:induction false} NoneTicked(ts: seq<Task>)
    requires forall i :: 0 <= i < |ts| ==> !ts[i].completed
    ensures CompletedCount(ts) == 0
  {
    if |ts| > 0 {
      assert forall i :: 1 <= i < |ts| ==> ts[1..][i - 1] == ts[i];
      NoneTicked(ts[1..]);
    }
  }

  /** Toggle each id of `ids` in turn; ids and titles are never changed. */
  function ToggleAll(ts: seq<Task>, ids: seq<string>): (r: seq<Task>)
    ensures |r| == |ts|
    ensures forall i :: 0 <= i < |ts| ==> r[i].id == ts[i].id && r[i].title == ts[i].title
    decreases |ids|
  {
    if |ids| == 0 then ts else ToggleAll(Toggle(ts, ids[0]), ids[1..])
  }

  /** Ticking each of the four fresh tasks once completes the list. */
  lemma TickEachOnce(ts: seq<Task>)
    requires |ts| == 4 && forall i :: 0 <= i < 4 ==> !ts[i].completed
    requires ts[0].id == "1" && ts[1].id == "2" && ts[2].id == "3" && ts[3].id == "4"
    ensures IsAllComplete(ToggleAll(ts, ["1", "2", "3", "4"]))
  {
    var r1 := Toggle(ts, "1");
    var r2 := Toggle(r1, "2");
    var r3 := Toggle(r2, "3");
    var r4 := Toggle(r3, "4");
    assert r1[0].completed && !r1[1].completed && !r1[2].completed && !r1[3].completed;
    assert r2[0].completed && r2[1].completed && !r2[2].completed && !r2[3].completed;
    assert r3[0].completed && r3[1].completed && r3[2].completed && !r3[3].completed;
    assert r4[0].completed && r4[1].completed && r4[2].completed && r4[3].completed;
    assert ToggleAll(ts, ["1", "2", "3", "4"]) == r4 by {
      assert ["1", "2", "3", "4"][1..] == ["2", "3", "4"];
      assert ["2", "3", "4"][1..] == ["3", "4"];
      assert ["3", "4"][1..] == ["4"];
    }
  }
}

/** The credit tune-up card: four repair tasks and a projected score. */
module CreditTuneUpCard {
  import opened Checklist

  const PointsPerTask: int := 15

  function InitialTasks(): (ts: seq<Task>)
    ensures |ts| == 4 && DistinctIds(ts) && CompletedCount(ts) == 0 && !IsAllComplete(ts)
    ensures forall i :: 0 <= i < 4 ==> !ts[i].completed
    ensures ts[0].id == "1" && ts[1].id == "2" && ts[2].id == "3" && ts[3].id == "4"
    ensures Titles(ts) == ["Review Credit Report", "Pay Down High Balances", "Set Up Payment Reminders", "Dispute Errors"]
  {
    FourTasks("Review Credit Report", "Pay Down High Balances", "Set Up Payment Reminders", "Dispute Errors")
  }

  /** The projected score: 15 points per completed task on top of the current score. */
  function PotentialScore(currentScore: int, ts: seq<Task>): (p: int)
    ensures currentScore <= p <= currentScore + PointsPerTask * |ts|
    ensures (p - currentScore) % PointsPerTask == 0
    ensures p == currentScore <==> CompletedCount(ts) == 0
    ensures p == currentScore + PointsPerTask * |ts| <==> IsAllComplete(ts)
  {
    currentScore + CompletedCount(ts) * PointsPerTask
  }

  /** Whatever the user ticks or unticks on the card's four tasks, the
      projection stays between the current score and 60 points above it. */
  lemma PotentialWithinSixty(currentScore: int, ids: seq<string>)
    ensures var ts := ToggleAll(InitialTasks(), ids);
      currentScore <= PotentialScore(currentScore, ts) <= currentScore + 60
  {
  }

  /** Ticking an unticked task raises the projection by exactly 15. */
  lemma TickRaisesPotential(currentScore: int, ts: seq<Task>, k: nat)
    requires DistinctIds(ts) && k < |ts| && !ts[k].completed
    ensures PotentialScore(currentScore, Toggle(ts, ts[k].id)) == PotentialScore(currentScore, ts) + PointsPerTask
  {
    ToggleCountsOne(ts, k);
  }
}

/** The lender packet card: four packet items and the downloadable list. */
module LenderPacketCard {
  import opened Checklist

  function InitialItems(): (ts: seq<Task>)
    ensures |ts| == 4 && DistinctIds(ts) && CompletedCount(ts) == 0 && !IsAllComplete(ts)
    ensures forall i :: 0 <= i < 4 ==> !ts[i].completed
    ensures ts[0].id == "1" && ts[1].id == "2" && ts[2].id == "3" && ts[3].id == "4"
    ensures Titles(ts) == ["Financial Summary", "Document Package", "Pre-qualification Letter", "DPA Application"]
  {
    FourTasks("Financial Summary", "Document Package", "Pre-qualification Letter", "DPA Application")
  }

  /** The document titles written to the downloaded packet: the ticked items. */
  function DownloadedDocuments(items: seq<Task>): (docs: seq<string>)
    ensures |docs| == CompletedCount(items)
    ensures forall i :: 0 <= i < |items| ==> (items[i].completed ==> items[i].title in docs)
    ensures (forall i :: 0 <= i < |items| ==> items[i].completed) ==> docs == Titles(items)
  {
    if forall i :: 0 <= i < |items| ==> items[i].completed then
      AllCompleteTitles(items);
      CompletedTitles(items)
    else CompletedTitles(items)
  }

  /** The downloaded list follows the checklist's order: splitting the items
      anywhere splits the list at the same place, and one item contributes its
      title exactly when it is ticked. */
  lemma DownloadedInListOrder(a: seq<Task>, t: Task, b: seq<Task>)
    ensures DownloadedDocuments(a + [t] + b)
         == DownloadedDocuments(a) + (if t.completed then [t.title] else []) + DownloadedDocuments(b)
  {
    CompletedTitlesAppend(a + [t], b);
    CompletedTitlesAppend(a, [t]);
    CompletedTitlesSingle(t);
  }

  /** A fresh packet downloads no documents; ticking all four downloads all four titles. */
  lemma DownloadedAfterTicking()
    ensures DownloadedDocuments(InitialItems()) == []
    ensures DownloadedDocuments(ToggleAll(InitialItems(), ["1", "2", "3", "4"]))
         == ["Financial Summary", "Document Package", "Pre-qualification Letter", "DPA Application"]
  {
    var ts := ToggleAll(InitialItems(), ["1", "2", "3", "4"]);
    TickEachOnce(InitialItems());
    assert Titles(ts) == Titles(InitialItems());
  }
}

/** The pre-approval card: four tasks gating the appraisal phase. */
module PreApprovalCard {
  import opened Checklist

  function InitialTasks(): (ts: seq<Task>)
    ensures |ts| == 4 && DistinctIds(ts) && CompletedCount(ts) == 0 && !IsAllComplete(ts)
    ensures forall i :: 0 <= i < 4 ==> !ts[i].completed
    ensures ts[0].id == "1" && ts[1].id == "2" && ts[2].id == "3" && ts[3].id == "4"
    ensures Titles(ts) == ["Submit Pre-Approval Application", "Review Pre-Approval Letter", "Understand Contingencies", "Confirm Rate Lock Options"]
  {
    FourTasks("Submit Pre-Approval Application", "Review Pre-Approval Letter",
              "Understand Contingencies", "Confirm Rate Lock Options")
  }

  /** Continue unlocks after each task is ticked once, and not after only three. */
  lemma ContinueAfterAllFour()
    ensures IsAllComplete(ToggleAll(InitialTasks(), ["1", "2", "3", "4"]))
    ensures !IsAllComplete(ToggleAll(InitialTasks(), ["1", "2", "3"]))
  {
    TickEachOnce(InitialTasks());
    var ts := ToggleAll(InitialTasks(), ["1", "2", "3"]);
    assert ts == Toggle(Toggle(Toggle(InitialTasks(), "1"), "2"), "3") by {
      assert ["1", "2", "3"][1..] == ["2", "3"];
      assert ["2", "3"][1..] == ["3"];
    }
    assert !ts[3].completed;
  }
}

/** The appraisal preparation card: four tasks closing the journey. */
module AppraisalPrepCard {
  import opened Checklist

  function InitialTasks(): (ts: seq<Task>)
    ensures |ts| == 4 && DistinctIds(ts) && CompletedCount(ts) == 0 && !IsAllComplete(ts)
    ensures forall i :: 0 <= i < 4 ==> !ts[i].completed
    ensures ts[0].id == "1" && ts[1].id == "2" && ts[2].id == "3" && ts[3].id == "4"
    ensures Titles(ts) == ["Understand Appraisal Process", "Prepare Property Information", "Review Comparable Sales", "Plan for Appraisal Gap"]
  {
    FourTasks("Understand Appraisal Process", "Prepare Property Information",
              "Review Comparable Sales", "Plan for Appraisal Gap")
  }

  /** Ticking a task and unticking it again leaves the card where it started. */
  lemma UntickRestores(id: string)
    ensures Toggle(Toggle(InitialTasks(), id), id) == InitialTasks()
    ensures IsAllComplete(ToggleAll(InitialTasks(), ["1", "2", "3", "4"]))
  {
    ToggleTwice(InitialTasks(), id);
    TickEachOnce(InitialTasks());
  }
}

=== FILE: coach.dfy ===
/** The coaching session's own rules: the phase-completion booster, the
    document upsert with its packet completeness, the scripted intake
    conversation, the phase-completion handlers and the progress percentage. */
module Coach {
  import opened Base
  import opened Calculations
  import opened DocumentCard

  // ---------------------------------------------------------------------------
  // Phase-completion booster

  /** The five checklist phases, in the order the session walks through them. */
  const PhaseNames: seq<string> := ["documents", "credit", "packet", "preapproval", "appraisal"]
  const PhaseSet: set<string> := set n | n in PhaseNames
  const PhaseBoost: int := 5

  /** The boost a completed phase earns; names outside the table earn nothing. */
  function BoostFor(phase: string): (b: int)
    ensures b == PhaseBoost <==> phase in PhaseNames
    ensures b == 0 <==> phase !in PhaseNames
  {
    if phase in PhaseNames then PhaseBoost else 0
  }

  /** Raise the composite score and the packet sub-score by the phase's boost,
      capped at 100; nothing happens before a score exists. */
  function UpdateReadinessScore(readiness: Option<ReadinessScore>, phase: string): (r: Option<ReadinessScore>)
    ensures r.Some? <==> readiness.Some?
    ensures (readiness.Some? && phase !in PhaseNames && readiness.value.score <= 100
             && readiness.value.breakdown.packet.score <= 100) ==> r == readiness
    ensures readiness.Some? ==>
      var (old_, new_) := (readiness.value, r.value);
      && new_.score == Min(100, old_.score + BoostFor(phase))
      && new_.breakdown.packet.score == Min(100, old_.breakdown.packet.score + BoostFor(phase))
      && new_.breakdown.packet.weight == old_.breakdown.packet.weight
      && new_.breakdown.affordability == old_.breakdown.affordability
      && new_.breakdown.credit == old_.breakdown.credit
      && new_.breakdown.reserves == old_.breakdown.reserves
      && new_.pitiLow == old_.pitiLow && new_.pitiHigh == old_.pitiHigh
      && new_.etaWeeks == old_.etaWeeks
      && new_.affordabilityFit == old_.affordabilityFit
      && new_.creditBandPoints == old_.creditBandPoints
      && new_.reservesMonths == old_.reservesMonths
      && new_.pktPoints == old_.pktPoints
  {
    if readiness.None? then None
    else
      var rs := readiness.value;
      var boost := BoostFor(phase);
      Some(rs.(score := Min(100, rs.score + boost),
               breakdown := rs.breakdown.(packet := rs.breakdown.packet.(
                 score := Min(100, rs.breakdown.packet.score + boost)))))
  }

  /** The boosted score and packet sub-score never go down and never pass 100;
      at 100 the boost changes nothing. */
  lemma BoostMonotoneAndCapped(rs: ReadinessScore, phase: string)
    requires rs.score <= 100 && rs.breakdown.packet.score <= 100
    ensures var r := UpdateReadinessScore(Some(rs), phase).value;
      && rs.score <= r.score <= 100
      && rs.breakdown.packet.score <= r.breakdown.packet.score <= 100
      && (rs.score == 100 ==> r.score == 100)
      && (rs.score == 100 && rs.breakdown.packet.score == 100 ==> r == rs)
  {
  }

  /** Apply the boosts of a sequence of completed phases, in order. */
  function ApplyBoosts(readiness: Option<ReadinessScore>, phases: seq<string>): (r: Option<ReadinessScore>)
    ensures r.Some? <==> readiness.Some?
    decreases |phases|
  {
    if |phases| == 0 then readiness
    else ApplyBoosts(UpdateReadinessScore(readiness, phases[0]), phases[1..])
  }

  /** Completing n known phases adds 5 per phase, capped once at 100. */
  lemma {:induction false} BoostsAccumulate(rs: ReadinessScore, phases: seq<string>)
    decreases |phases|
    requires forall i :: 0 <= i < |phases| ==> phases[i] in PhaseNames
    requires rs.score <= 100
    ensures ApplyBoosts(Some(rs), phases).Some?
    ensures ApplyBoosts(Some(rs), phases).value.score == Min(100, rs.score + PhaseBoost * |phases|)
  {
    if |phases| > 0 {
      var next := UpdateReadinessScore(Some(rs), phases[0]).value;
      assert forall i :: 0 <= i < |phases[1..]| ==> phases[1..][i] == phases[i + 1];
      BoostsAccumulate(next, phases[1..]);
    }
  }

  /** Completing all five phases from any score yields min(100, score + 25). */
  lemma AllPhasesBoost(rs: ReadinessScore)
    requires rs.score <= 100
    ensures ApplyBoosts(Some(rs), PhaseNames).Some?
    ensures ApplyBoosts(Some(rs), PhaseNames).value.score == Min(100, rs.score + 25)
  {
    BoostsAccumulate(rs, PhaseNames);
  }

  /** A boost can break the weighted-sum identity the score had when computed. */
  lemma BoostDriftsFromWeightedSum()
    ensures var rs := ReadinessScore(0, 0, 0, 0, 0, 0, 0.0, 0,
              Breakdown(Component(0, 40), Component(0, 25), Component(0, 20), Component(0, 15)));
      && rs.score == Composite(rs.breakdown)
      && UpdateReadinessScore(Some(rs), "documents").value.score
         != Composite(UpdateReadinessScore(Some(rs), "documents").value.breakdown)
  {
    var b := Breakdown(Component(0, 40), Component(0, 25), Component(0, 20), Component(5, 15));
    assert Composite(b) == Round(75.0 / 100.0);
  }

  // ---------------------------------------------------------------------------
  // Document upsert

  /** The number of required documents the packet completeness is measured against. */
  const PacketRequiredDocs: int := 8

  /** Every entry of type `t` becomes verified; the others are untouched. */
  function MarkVerified(docs: seq<DocumentItem>, t: string): (r: seq<DocumentItem>)
    ensures |r| == |docs|
    ensures forall i :: 0 <= i < |docs| ==> r[i].docType == docs[i].docType
    ensures forall i :: 0 <= i < |docs| ==> r[i].status == (if docs[i].docType == t then Verified else docs[i].status)
  {
    if |docs| == 0 then []
    else
      var d := docs[0];
      [if d.docType == t then d.(status := Verified) else d] + MarkVerified(docs[1..], t)
  }

  /** Record an upload of type `t`: an existing type is marked verified in
      place, a new type is appended as verified. */
  function UploadDocument(docs: seq<DocumentItem>, t: string): (r: seq<DocumentItem>)
    ensures GetDocumentStatus(docs, t).Some? ==>
      && |r| == |docs|
      && (forall i :: 0 <= i < |docs| ==> r[i].docType == docs[i].docType)
      && (forall i :: 0 <= i < |docs| && docs[i].docType != t ==> r[i] == docs[i])
      && (forall i :: 0 <= i < |docs| && docs[i].docType == t ==> r[i].status == Verified)
    ensures GetDocumentStatus(docs, t).None? ==> r == docs + [DocumentItem(t, Verified)]
  {
    if GetDocumentStatus(docs, t).Some? then MarkVerified(docs, t)
    else docs + [DocumentItem(t, Verified)]
  }

  lemma {:induction false} MarkVerifiedKeepsOthers(docs: seq<DocumentItem>, t: string, u: string)
    requires u != t
    ensures GetDocumentStatus(MarkVerified(docs, t), u) == GetDocumentStatus(docs, u)
  {
    if |docs| > 0 {
      var r := MarkVerified(docs, t);
      assert r[1..] == MarkVerified(docs[1..], t);
      MarkVerifiedKeepsOthers(docs[1..], t, u);
    }
  }

  /** After an upload the uploaded type is verified, and every type that was
      verified before still is. */
  lemma UploadVerifies(docs: seq<DocumentItem>, t: string, u: string)
    ensures IsVerified(UploadDocument(docs, t), t)
    ensures IsVerified(docs, u) ==> IsVerified(UploadDocument(docs, t), u)
  {
    var r := UploadDocument(docs, t);
    if GetDocumentStatus(docs, t).Some? {
      var d := GetDocumentStatus(r, t).value;
      var i :| 0 <= i < |r| && r[i] == d;
      assert docs[i].docType == t;
      if u != t { MarkVerifiedKeepsOthers(docs, t, u); }
    } else {
      GetDocumentStatusAppend(docs, [DocumentItem(t, Verified)], t);
      GetDocumentStatusAppend(docs, [DocumentItem(t, Verified)], u);
    }
  }

  lemma {:induction false} CountVerifiedGrows(docs: seq<DocumentItem>, t: string, types: seq<string>)
    ensures CountVerified(docs, types) <= CountVerified(UploadDocument(docs, t), types)
  {
    if |types| > 0 {
      UploadVerifies(docs, t, types[0]);
      CountVerifiedGrows(docs, t, types[1..]);
    }
  }

  /** An upload never lowers the document card's completed count. */
  lemma UploadNeverLowersCount(docs: seq<DocumentItem>, t: string)
    ensures CompletedCount(docs) <= CompletedCount(UploadDocument(docs, t))
  {
    CountVerifiedGrows(docs, t, RequiredDocuments);
  }

  /** Packet completeness: entries on file out of eight, as a percentage. */
  function PacketCompleteness(docs: seq<DocumentItem>): (c: real)
    ensures c * PacketRequiredDocs as real == |docs| as real * 100.0
    ensures c >= 0.0
    ensures |docs| <= PacketRequiredDocs ==> c <= 100.0
  {
    (|docs| as real / PacketRequiredDocs as real) * 100.0
  }

  /** The upload handler: upsert the document, then rescore (when a score
      exists) with no assistance and the new packet completeness. */
  function HandleDocumentUpload(docs: seq<DocumentItem>, profile: Profile, readiness: Option<ReadinessScore>,
                                t: string, af: real): (r: (seq<DocumentItem>, Option<ReadinessScore>))
    requires readiness.Some? ==> Scorable(profile, af)
    ensures r.0 == UploadDocument(docs, t)
    ensures r.1.Some? <==> readiness.Some?
    ensures r.1.Some? ==> r.1.value == CalculateReadinessScore(profile, 0.0, PacketCompleteness(r.0), af)
    ensures r.1.Some? && |r.0| <= PacketRequiredDocs ==> 0 <= r.1.value.score <= 100
  {
    var newDocs := UploadDocument(docs, t);
    if readiness.Some? then (newDocs, Some(CalculateReadinessScore(profile, 0.0, PacketCompleteness(newDocs), af)))
    else (newDocs, None)
  }

  // ---------------------------------------------------------------------------
  // Intake conversation

  /** What the conversation reads out of one user message: a 5-digit zip code,
      the trimmed length, the first number (commas removed), the first run of
      digits, and whether the message says "not sure" or "don't know". */
  datatype Reply = Reply(zip: Option<string>, trimmedLength: nat, amount: Option<nat>,
                         leadingDigits: Option<nat>, unsure: bool)

  /** The next step, the profile after this message, the score if one was
      computed, and the session phase the message switches to, if any. */
  datatype Response = Response(step: int, profile: Profile, readiness: Option<ReadinessScore>, phase: Option<Phase>)

  const DefaultIncome: real := 4000.0
  const DefaultDebts: real := 500.0
  const DefaultCredit: int := 650
  const DefaultSavings: real := 5000.0
  const DefaultPrice: real := 200000.0
  const DefaultZip: string := "27610"

  /** The target price read at the last step: a stated number, or 28% of income
      times 150 when the user is unsure, else zero. */
  function StatedPrice(profile: Profile, reply: Reply): (price: real)
    ensures reply.amount.Some? ==> price == reply.amount.value as real
    ensures reply.amount.None? && reply.unsure ==> price == OrReal(profile.incomeNet, DefaultIncome) * 0.28 * 150.0
    ensures reply.amount.None? && !reply.unsure ==> price == 0.0
  {
    if reply.amount.Some? then reply.amount.value as real
    else if reply.unsure then OrReal(profile.incomeNet, DefaultIncome) * 0.28 * 150.0
    else 0.0
  }

  /** The full profile built at the last step: every missing or zero answer is
      replaced by its default, rent is zero and the down payment is 3%. */
  function IntakeProfile(profile: Profile, reply: Reply): (p: Profile)
    ensures p.incomeNet.Some? && p.incomeNet.value != 0.0
    ensures p.debtsMin.Some? && p.debtsMin.value != 0.0
    ensures p.creditScore.Some? && p.creditScore.value != 0
    ensures p.savings.Some? && p.savings.value != 0.0
    ensures p.cityZip.Some? && p.cityZip.value != ""
    ensures p.targetPriceMin == p.targetPriceMax && p.targetPriceMin.Some? && p.targetPriceMin.value != 0.0
    ensures p.rent == Some(0.0) && p.dpPct == Some(3.0)
    ensures profile.incomeNet.Some? && profile.incomeNet.value != 0.0 ==> p.incomeNet == profile.incomeNet
    ensures profile.creditScore.Some? && profile.creditScore.value != 0 ==> p.creditScore == profile.creditScore
    ensures profile.savings.Some? && profile.savings.value != 0.0 ==> p.savings == profile.savings
    ensures profile.debtsMin.Some? && profile.debtsMin.value != 0.0 ==> p.debtsMin == profile.debtsMin
    ensures StatedPrice(profile, reply) != 0.0 ==> p.targetPriceMin == Some(StatedPrice(profile, reply))
    ensures profile.cityZip.Some? && profile.cityZip.value != "" ==> p.cityZip == profile.cityZip
    ensures profile.incomeNet.None? || profile.incomeNet.value == 0.0 ==> p.incomeNet == Some(DefaultIncome)
    ensures profile.debtsMin.None? || profile.debtsMin.value == 0.0 ==> p.debtsMin == Some(DefaultDebts)
    ensures profile.creditScore.None? || profile.creditScore.value == 0 ==> p.creditScore == Some(DefaultCredit)
    ensures profile.savings.None? || profile.savings.value == 0.0 ==> p.savings == Some(DefaultSavings)
    ensures profile.cityZip.None? || profile.cityZip.value == "" ==> p.cityZip == Some(DefaultZip)
    ensures StatedPrice(profile, reply) == 0.0 ==> p.targetPriceMin == Some(DefaultPrice)
  {
    var price := StatedPrice(profile, reply);
    Profile(
      creditScore := Some(OrInt(profile.creditScore, DefaultCredit)),
      incomeNet := Some(OrReal(profile.incomeNet, DefaultIncome)),
      debtsMin := Some(OrReal(profile.debtsMin, DefaultDebts)),
      savings := Some(OrReal(profile.savings, DefaultSavings)),
      rent := Some(0.0),
      cityZip := Some(OrText(profile.cityZip, DefaultZip)),
      targetPriceMin := Some(if price != 0.0 then price else DefaultPrice),
      targetPriceMax := Some(if price != 0.0 then price else DefaultPrice),
      dpPct := Some(3.0))
  }

  lemma UnsurePriceDefaultsToIncome(profile: Profile, reply: Reply)
    requires reply.amount.None? && reply.unsure && profile.incomeNet.None?
    ensures IntakeProfile(profile, reply).targetPriceMin == Some(168000.0)
  {
  }

  /** One turn of the scripted conversation. Each step either stays (the answer
      was not usable) or moves to the next one, recording the answer; the last
      step builds the full profile, scores it and opens the readiness phase. */
  function GenerateResponse(step: int, reply: Reply, profile: Profile, af: real): (r: Response)
    requires step == 6 ==> Scorable(IntakeProfile(profile, reply), af)
    ensures 0 <= step <= 6 ==> r.step == step || r.step == step + 1
    ensures (step < 0 || step > 6) ==> r.step == 7 && r.profile == profile
    ensures step == 0 || step == 6 ==> r.step == step + 1
    ensures step == 1 ==> (r.step == 2 <==> reply.zip.Some? || reply.trimmedLength > 2)
    ensures step == 2 ==> (r.step == 3 <==> reply.amount.Some? && reply.amount.value > 0)
    ensures step == 3 || step == 5 ==> (r.step == step + 1 <==> reply.amount.Some?)
    ensures step == 4 ==> (r.step == 5 <==> reply.leadingDigits.Some? && 300 <= reply.leadingDigits.value <= 850)
    ensures r.step == step ==> r.profile == profile
    ensures step == 0 ==> r.profile == profile
    ensures step == 1 && r.step == 2 && reply.zip.Some? ==> r.profile == profile.(cityZip := reply.zip)
    ensures step == 1 && r.step == 2 && reply.zip.None? ==> r.profile == profile
    ensures step == 2 && r.step == 3 ==> r.profile == profile.(incomeNet := Some(reply.amount.value as real))
    ensures step == 3 && r.step == 4 ==> r.profile == profile.(debtsMin := Some(reply.amount.value as real))
    ensures step == 4 && r.step == 5 ==> r.profile == profile.(creditScore := Some(reply.leadingDigits.value as int))
    ensures step == 5 && r.step == 6 ==> r.profile == profile.(savings := Some(reply.amount.value as real))
    ensures r.readiness.Some? <==> step == 6
    ensures r.phase.Some? <==> step == 6
    ensures step == 6 ==>
      && r.profile == IntakeProfile(profile, reply)
      && r.readiness == Some(CalculateReadinessScore(r.profile, 0.0, 0.0, af))
      && r.phase == Some(Readiness)
  {
    match step
    case 0 => Response(1, profile, None, None)
    case 1 =>
      if !(reply.zip.Some? || reply.trimmedLength > 2) then Response(1, profile, None, None)
      else Response(2, if reply.zip.Some? then profile.(cityZip := reply.zip) else profile, None, None)
    case 2 =>
      if reply.amount.None? || reply.amount.value as real <= 0.0 then Response(2, profile, None, None)
      else Response(3, profile.(incomeNet := Some(reply.amount.value as real)), None, None)
    case 3 =>
      if reply.amount.None? then Response(3, profile, None, None)
      else Response(4, profile.(debtsMin := Some(reply.amount.value as real)), None, None)
    case 4 =>
      var creditScore := if reply.leadingDigits.Some? then reply.leadingDigits.value as int else 0;
      if reply.leadingDigits.None? || creditScore < 300 || creditScore > 850 then Response(4, profile, None, None)
      else Response(5, profile.(creditScore := Some(creditScore)), None, None)
    case 5 =>
      if reply.amount.None? then Response(5, profile, None, None)
      else Response(6, profile.(savings := Some(reply.amount.value as real)), None, None)
    case 6 =>
      var full := IntakeProfile(profile, reply);
      Response(7, full, Some(CalculateReadinessScore(full, 0.0, 0.0, af)), Some(Readiness))
    case _ => Response(7, profile, None, None)
  }

  /** The readiness produced at the end of the conversation is a proper score:
      in [0, 100], with no packet credit and at least ten weeks to go. */
  lemma IntakeScoreShape(profile: Profile, reply: Reply, af: real)
    requires Scorable(IntakeProfile(profile, reply), af)
    ensures var rs := GenerateResponse(6, reply, profile, af).readiness.value;
      && 0 <= rs.score <= 100
      && rs.pktPoints == 0
      && rs.etaWeeks >= 10
  {
  }

  // ---------------------------------------------------------------------------
  // Phase handlers and progress

  datatype Phase = Initial | Readiness | Documents | Credit | Packet | PreApproval | Appraisal | Survey | Complete

  /** Position of a phase in the session's order. */
  function PhaseOrder(ph: Phase): nat
  {
    match ph
    case Initial => 0
    case Readiness => 1
    case Documents => 2
    case Credit => 3
    case Packet => 4
    case PreApproval => 5
    case Appraisal => 6
    case Survey => 7
    case Complete => 8
  }

  /** A checklist phase the user can mark complete. */
  datatype Checkpoint = DocumentsDone | CreditDone | PacketDone | PreApprovalDone | AppraisalDone
  {
    function Name(): (n: string)
      ensures n in PhaseNames
    {
      match this
      case DocumentsDone => "documents"
      case CreditDone => "credit"
      case PacketDone => "packet"
      case PreApprovalDone => "preapproval"
      case AppraisalDone => "appraisal"
    }

    /** The phase this checkpoint closes. */
    function Closes(): (ph: Phase)
      ensures 2 <= PhaseOrder(ph) <= 6 && PhaseNames[PhaseOrder(ph) - 2] == Name()
    {
      match this
      case DocumentsDone => Documents
      case CreditDone => Credit
      case PacketDone => Packet
      case PreApprovalDone => PreApproval
      case AppraisalDone => Appraisal
    }

    /** The phase the handler moves the session to: always the one right after
        the phase it closes, so the last checkpoint leads to the survey. */
    function Next(): (n: Phase)
      ensures PhaseOrder(n) == PhaseOrder(Closes()) + 1
      ensures n == Survey <==> this == AppraisalDone
    {
      match this
      case DocumentsDone => Credit
      case CreditDone => Packet
      case PacketDone => PreApproval
      case PreApprovalDone => Appraisal
      case AppraisalDone => Survey
    }
  }

  datatype Session = Session(phase: Phase, completed: set<string>, readiness: Option<ReadinessScore>)

  /** The completion handler of a checklist phase: record the phase, move on
      to the next one, and boost the score. */
  function CompletePhase(s: Session, c: Checkpoint): (r: Session)
    ensures r.completed == s.completed + {c.Name()}
    ensures s.completed <= r.completed
    ensures r.phase == c.Next()
    ensures r.readiness == UpdateReadinessScore(s.readiness, c.Name())
    ensures s.readiness.Some? && s.readiness.value.score <= 100 ==>
      s.readiness.value.score <= r.readiness.value.score <= 100
  {
    Session(c.Next(), s.completed + {c.Name()}, UpdateReadinessScore(s.readiness, c.Name()))
  }

  function CompleteSurvey(s: Session): (r: Session)
    ensures r.phase == Complete && r.completed == s.completed && r.readiness == s.readiness
  {
    s.(phase := Complete)
  }

  /** The progress bar: completed phases out of five, as a rounded percentage. */
  function ProgressPercent(completed: set<string>): (p: int)
    ensures completed <= PhaseSet ==> 0 <= p <= 100
    ensures completed <= PhaseSet ==> (p == 100 <==> completed == PhaseSet)
    ensures completed == {} ==> p == 0
    ensures p == 20 * |completed|
  {
    var all := PhaseSet;
    PhaseSetSize();
    if completed <= all then
      assert |completed| <= 5 by { SubsetCard(completed, all); }
      if |completed| == 5 then
        assert completed == all by { SubsetSameCard(completed, all); }
        Round((|completed| as real / 5.0) * 100.0)
      else
        RoundWithin((|completed| as real / 5.0) * 100.0, 0, 80);
        Round((|completed| as real / 5.0) * 100.0)
    else
      Round((|completed| as real / 5.0) * 100.0)
  }

  /** The five phase names are distinct, so the phase set has five members. */
  lemma PhaseSetSize()
    ensures |PhaseSet| == |PhaseNames| == 5
  {
    assert PhaseSet == {"documents", "credit", "packet", "preapproval", "appraisal"} by {
      forall n | n in PhaseSet ensures n in {"documents", "credit", "packet", "preapproval", "appraisal"} { }
      assert PhaseNames[0] in PhaseSet && PhaseNames[1] in PhaseSet && PhaseNames[2] in PhaseSet;
      assert PhaseNames[3] in PhaseSet && PhaseNames[4] in PhaseSet;
    }
  }

  lemma SubsetCard<T>(a: set<T>, b: set<T>)
    requires a <= b
    ensures |a| <= |b|
  {
    assert b == a + (b - a);
  }

  lemma SubsetSameCard<T>(a: set<T>, b: set<T>)
    requires a <= b && |a| == |b|
    ensures a == b
  {
    assert b == a + (b - a);
    assert |b - a| == 0;
  }

  /** Boosting by the whole phase list is boosting by each phase in turn. */
  lemma BoostsInOrder(r0: Option<ReadinessScore>)
    ensures ApplyBoosts(r0, PhaseNames)
         == UpdateReadinessScore(UpdateReadinessScore(UpdateReadinessScore(UpdateReadinessScore(
              UpdateReadinessScore(r0, "documents"), "credit"), "packet"), "preapproval"), "appraisal")
  {
    var r1 := UpdateReadinessScore(r0, "documents");
    var r2 := UpdateReadinessScore(r1, "credit");
    var r3 := UpdateReadinessScore(r2, "packet");
    var r4 := UpdateReadinessScore(r3, "preapproval");
    var r5 := UpdateReadinessScore(r4, "appraisal");
    assert ApplyBoosts(r5, []) == r5;
    assert ApplyBoosts(r4, ["appraisal"]) == r5;
    assert ApplyBoosts(r3, ["preapproval", "appraisal"]) == r5;
    assert ApplyBoosts(r2, ["packet", "preapproval", "appraisal"]) == r5;
    assert ApplyBoosts(r1, ["credit", "packet", "preapproval", "appraisal"]) == r5;
  }

  /** The five handlers in order record every phase, land on the survey and
      apply the five boosts in phase order. */
  lemma JourneySteps(s0: Session)
    ensures var s := CompletePhase(CompletePhase(CompletePhase(CompletePhase(CompletePhase(
              s0, DocumentsDone), CreditDone), PacketDone), PreApprovalDone), AppraisalDone);
      && s.completed == s0.completed + PhaseSet
      && s.phase == Survey
      && s.readiness == ApplyBoosts(s0.readiness, PhaseNames)
  {
    BoostsInOrder(s0.readiness);
    var s1 := CompletePhase(s0, DocumentsDone);
    var s2 := CompletePhase(s1, CreditDone);
    var s3 := CompletePhase(s2, PacketDone);
    var s4 := CompletePhase(s3, PreApprovalDone);
    var s5 := CompletePhase(s4, AppraisalDone);
    assert s5.completed == s0.completed + PhaseSet;
  }

  /** Running the five handlers in order from a fresh session completes every
      phase, fills the progress bar and lands on the survey. */
  lemma FullJourney(rs: ReadinessScore)
    requires rs.score <= 100
    ensures var s := CompletePhase(CompletePhase(CompletePhase(CompletePhase(CompletePhase(
              Session(Documents, {}, Some(rs)), DocumentsDone), CreditDone), PacketDone), PreApprovalDone), AppraisalDone);
      && s.phase == Survey
      && ProgressPercent(s.completed) == 100
      && s.readiness.value.score == Min(100, rs.score + 25)
  {
    AllPhasesBoost(rs);
    JourneySteps(Session(Documents, {}, Some(rs)));
    assert {} + PhaseSet == PhaseSet;
  }
}

=== FILE: document_card.dfy ===
/** The document checklist: which of the four required document types have a
    verified upload, how many, and which still show an upload button. */
module DocumentCard {
  import opened Base

  datatype DocStatus = Missing | Uploaded | Verified

  datatype DocumentItem = DocumentItem(docType: string, status: DocStatus)

  const RequiredDocuments: seq<string> := ["ID Document", "Income Verification", "Bank Statements", "Credit Report"]

  /** The first entry of the given type, if any. */
  function GetDocumentStatus(docs: seq<DocumentItem>, t: string): (r: Option<DocumentItem>)
    ensures r.None? <==> forall d :: d in docs ==> d.docType != t
    ensures r.Some? ==> r.value in docs && r.value.docType == t
  {
    if |docs| == 0 then None
    else if docs[0].docType == t then Some(docs[0])
    else
      assert forall d :: d in docs <==> d == docs[0] || d in docs[1..];
      GetDocumentStatus(docs[1..], t)
  }

  /** The entry found is the first of its type: every earlier entry has another type. */
  lemma {:induction false} GetDocumentStatusIsFirst(docs: seq<DocumentItem>, t: string)
    requires GetDocumentStatus(docs, t).Some?
    ensures exists i :: 0 <= i < |docs| && docs[i] == GetDocumentStatus(docs, t).value
                        && forall j :: 0 <= j < i ==> docs[j].docType != t
  {
    if docs[0].docType != t {
      GetDocumentStatusIsFirst(docs[1..], t);
      var i :| 0 <= i < |docs[1..]| && docs[1..][i] == GetDocumentStatus(docs, t).value
               && forall j :: 0 <= j < i ==> docs[1..][j].docType != t;
      assert docs[i + 1] == GetDocumentStatus(docs, t).value;
      assert forall j :: 0 <= j < i + 1 ==> docs[j].docType != t by {
        forall j | 0 <= j < i + 1
          ensures docs[j].docType != t
        {
          if j > 0 { assert docs[j] == docs[1..][j - 1]; }
        }
      }
    } else {
      assert docs[0] == GetDocumentStatus(docs, t).value;
    }
  }

  predicate IsVerified(docs: seq<DocumentItem>, t: string)
  {
    var d := GetDocumentStatus(docs, t);
    d.Some? && d.value.status == Verified
  }

  /** How many of `types` have a verified first entry. */
  function CountVerified(docs: seq<DocumentItem>, types: seq<string>): (n: nat)
    ensures n <= |types|
  {
    if |types| == 0 then 0
    else (if IsVerified(docs, types[0]) then 1 else 0) + CountVerified(docs, types[1..])
  }

  /** The card's completed count: how many of the four required types are verified. */
  function CompletedCount(docs: seq<DocumentItem>): (n: nat)
    ensures n <= |RequiredDocuments| == 4
    ensures n == |set t | t in RequiredDocuments && IsVerified(docs, t)|
  {
    assert Distinct(RequiredDocuments);
    CountVerifiedIsCardinality(docs, RequiredDocuments);
    CountVerified(docs, RequiredDocuments)
  }

  predicate Distinct(types: seq<string>)
  {
    forall i, j :: 0 <= i < j < |types| ==> types[i] != types[j]
  }

  /** Over a list without repeats, the count is the number of verified types in it. */
  lemma {:induction false} CountVerifiedIsCardinality(docs: seq<DocumentItem>, types: seq<string>)
    requires Distinct(types)
    ensures CountVerified(docs, types) == |set t | t in types && IsVerified(docs, t)|
  {
    if |types| > 0 {
      var rest := types[1..];
      assert Distinct(rest) by {
        forall i, j | 0 <= i < j < |rest| ensures rest[i] != rest[j] {
          assert rest[i] == types[i + 1] && rest[j] == types[j + 1];
        }
      }
      CountVerifiedIsCardinality(docs, rest);
      var all := set t | t in types && IsVerified(docs, t);
      var tail := set t | t in rest && IsVerified(docs, t);
      assert types[0] !in rest by {
        forall k | 0 <= k < |rest| ensures rest[k] != types[0] {
          assert rest[k] == types[k + 1];
        }
      }
      assert forall t :: t in types <==> t == types[0] || t in rest;
      if IsVerified(docs, types[0]) {
        assert all == {types[0]} + tail;
        assert types[0] !in tail;
      } else {
        assert all == tail;
      }
    }
  }

  /** The card's continue button: the completed count reaches the number of
      required types, which is exactly when every required type is verified. */
  predicate IsAllComplete(docs: seq<DocumentItem>): (b: bool)
    ensures b <==> forall t :: t in RequiredDocuments ==> IsVerified(docs, t)
  {
    CountVerifiedFullIff(docs, RequiredDocuments);
    CompletedCount(docs) == |RequiredDocuments|
  }

  lemma {:induction false} CountVerifiedFullIff(docs: seq<DocumentItem>, types: seq<string>)
    ensures CountVerified(docs, types) == |types| <==> forall i :: 0 <= i < |types| ==> IsVerified(docs, types[i])
  {
    if |types| > 0 {
      CountVerifiedFullIff(docs, types[1..]);
      assert forall i :: 1 <= i < |types| ==> types[1..][i - 1] == types[i];
    }
  }

  /** The required types still showing an upload button, in display order. */
  function UploadButtons(docs: seq<DocumentItem>): (r: seq<string>)
    ensures forall t :: t in r <==> t in RequiredDocuments && !IsVerified(docs, t)
    ensures |r| + CompletedCount(docs) == |RequiredDocuments|
  {
    PendingOf(docs, RequiredDocuments)
  }

  function PendingOf(docs: seq<DocumentItem>, types: seq<string>): (r: seq<string>)
    ensures forall t :: t in r <==> t in types && !IsVerified(docs, t)
    ensures |r| + CountVerified(docs, types) == |types|
  {
    if |types| == 0 then []
    else
      var rest := PendingOf(docs, types[1..]);
      assert forall t :: t in types <==> t == types[0] || t in types[1..];
      if IsVerified(docs, types[0]) then rest else [types[0]] + rest
  }

  /** Inserting an entry of another type leaves the first entry of `t` alone. */
  lemma {:induction false} InsertOtherType(docs: seq<DocumentItem>, k: nat, e: DocumentItem, t: string)
    requires k <= |docs| && e.docType != t
    ensures GetDocumentStatus(docs[..k] + [e] + docs[k..], t) == GetDocumentStatus(docs, t)
  {
    var ins := docs[..k] + [e] + docs[k..];
    if k == 0 {
      assert ins == [e] + docs;
      assert ins[1..] == docs;
    } else {
      assert ins[0] == docs[0];
      InsertOtherType(docs[1..], k - 1, e, t);
      assert ins[1..] == docs[1..][..k - 1] + [e] + docs[1..][k - 1..];
    }
  }

  lemma {:induction false} CountUnchangedByInsert(docs: seq<DocumentItem>, k: nat, e: DocumentItem, types: seq<string>)
    requires k <= |docs| && e.docType !in types
    ensures CountVerified(docs[..k] + [e] + docs[k..], types) == CountVerified(docs, types)
  {
    if |types| > 0 {
      InsertOtherType(docs, k, e, types[0]);
      CountUnchangedByInsert(docs, k, e, types[1..]);
    }
  }

  /** An entry whose type is not required never changes the completed count,
      wherever it sits in the list. */
  lemma NonRequiredIgnored(docs: seq<DocumentItem>, k: nat, e: DocumentItem)
    requires k <= |docs| && e.docType !in RequiredDocuments
    ensures CompletedCount(docs[..k] + [e] + docs[k..]) == CompletedCount(docs)
  {
    CountUnchangedByInsert(docs, k, e, RequiredDocuments);
  }

  /** Looking up a concatenation finds the first list's entry if it has one. */
  lemma {:induction false} GetDocumentStatusAppend(a: seq<DocumentItem>, b: seq<DocumentItem>, t: string)
    ensures GetDocumentStatus(a + b, t)
         == if GetDocumentStatus(a, t).Some? then GetDocumentStatus(a, t) else GetDocumentStatus(b, t)
  {
    if |a| > 0 {
      assert (a + b)[0] == a[0];
      assert (a + b)[1..] == a[1..] + b;
      GetDocumentStatusAppend(a[1..], b, t);
    } else {
      assert a + b == b;
    }
  }
}

=== FILE: find_lender.dfy ===
/** The lender recommendations: three lenders chosen by the credit score. */
module FindLender {
  import opened Base

  datatype Lender = Lender(id: string, name: string, location: string)

  const PrimeThreshold: int := 700
  const DefaultCredit: int := 650

  function Ids(ls: seq<Lender>): (ids: seq<string>)
    ensures |ids| == |ls| && forall i :: 0 <= i < |ls| ==> ids[i] == ls[i].id
  {
    seq(|ls|, i requires 0 <= i < |ls| => ls[i].id)
  }

  /** Lenders 1 (strong credit) or 3 (credit building), always 2 and the
      nationwide lender 4. A missing or zero score counts as 650. */
  function GetLenders(creditScore: Option<int>, cityZip: Option<string>): (ls: seq<Lender>)
    ensures |ls| == 3
    ensures OrInt(creditScore, DefaultCredit) >= PrimeThreshold ==> Ids(ls) == ["1", "2", "4"]
    ensures OrInt(creditScore, DefaultCredit) < PrimeThreshold ==> Ids(ls) == ["2", "3", "4"]
    ensures forall i :: 0 <= i < |ls| && ls[i].id != "4" ==> ls[i].location == OrText(cityZip, "Your Area")
    ensures forall i :: 0 <= i < |ls| && ls[i].id == "4" ==> ls[i].location == "Nationwide"
  {
    var score := OrInt(creditScore, DefaultCredit);
    var area := OrText(cityZip, "Your Area");
    var prime := if score >= PrimeThreshold then [Lender("1", "Prime Mortgage Solutions", area)] else [];
    var community := [Lender("2", "Community First Lending", area)];
    var secondChance := if score < PrimeThreshold then [Lender("3", "Second Chance Home Loans", area)] else [];
    var homePath := [Lender("4", "HomePath Financial", "Nationwide")];
    prime + community + secondChance + homePath
  }

  /** Lenders 2 and 4 are always offered; 1 and 3 never together. */
  lemma AlwaysTwoAndFour(creditScore: Option<int>, cityZip: Option<string>)
    ensures var ids := Ids(GetLenders(creditScore, cityZip));
      && "2" in ids && "4" in ids
      && !("1" in ids && "3" in ids)
  {
  }

  lemma MissingCreditIs650(cityZip: Option<string>)
    ensures GetLenders(None, cityZip) == GetLenders(Some(0), cityZip) == GetLenders(Some(650), cityZip)
    ensures Ids(GetLenders(None, cityZip)) == ["2", "3", "4"]
  {
  }
}

=== FILE: signup.dfy ===
/** The sign-up form's submit rule and the checks made before signing up. The
    phone-number validator is a parameter. */
module Signup {

  datatype SignupForm = SignupForm(
    name: string,
    email: string,
    phone: string,
    password: string,
    confirm: string,
    submitting: bool)

  const MinPasswordLength: nat := 6

  /** Whether the phone field is acceptable: empty, or valid. */
  predicate PhoneAcceptable(f: SignupForm, isValidPhone: string -> bool)
  {
    f.phone == "" || isValidPhone(f.phone)
  }

  /** The submit button is enabled. */
  predicate CanSubmit(f: SignupForm, isValidPhone: string -> bool)
  {
    && f.name != ""
    && f.email != ""
    && PhoneAcceptable(f, isValidPhone)
    && |f.password| >= MinPasswordLength
    && f.password == f.confirm
    && !f.submitting
  }

  lemma CanSubmitRequirements(f: SignupForm, isValidPhone: string -> bool)
    ensures |f.password| < MinPasswordLength ==> !CanSubmit(f, isValidPhone)
    ensures f.password != f.confirm ==> !CanSubmit(f, isValidPhone)
    ensures f.name == "" || f.email == "" || f.submitting ==> !CanSubmit(f, isValidPhone)
    ensures f.phone != "" && !isValidPhone(f.phone) ==> !CanSubmit(f, isValidPhone)
  {
  }

  /** An empty phone never blocks submission. */
  lemma EmptyPhoneNeverBlocks(f: SignupForm, isValidPhone: string -> bool)
    requires f.phone == ""
    ensures CanSubmit(f, isValidPhone) <==> CanSubmit(f, (_: string) => false)
  {
  }

  datatype SubmitOutcome = PhoneRejected | PasswordMismatch | SignUpRequested

  /** The submit handler: reject an invalid non-empty phone, then mismatched
      passwords, else request the sign-up. */
  function OnSubmit(f: SignupForm, isValidPhone: string -> bool): (o: SubmitOutcome)
    ensures o == PhoneRejected <==> !PhoneAcceptable(f, isValidPhone)
    ensures o == PasswordMismatch <==> PhoneAcceptable(f, isValidPhone) && f.password != f.confirm
    ensures o == SignUpRequested <==> PhoneAcceptable(f, isValidPhone) && f.password == f.confirm
  {
    if f.phone != "" && !isValidPhone(f.phone) then PhoneRejected
    else if f.password != f.confirm then PasswordMismatch
    else SignUpRequested
  }

  /** Whatever the button allows, the handler passes through to sign-up. */
  lemma EnabledSubmitSignsUp(f: SignupForm, isValidPhone: string -> bool)
    requires CanSubmit(f, isValidPhone)
    ensures OnSubmit(f, isValidPhone) == SignUpRequested
  {
  }

  /** The handler does not re-check the password length: a short matching
      password reaches the sign-up call although the button would be disabled. */
  lemma HandlerSkipsLengthCheck()
    ensures var f := SignupForm("Ana", "a@b.c", "", "abc", "abc", false);
      && !CanSubmit(f, (_: string) => true)
      && OnSubmit(f, (_: string) => true) == SignUpRequested
  {
  }
}

=== FILE: timeline_card.dfy ===
/** The status overlay the timeline card draws over the generated milestones:
    each milestone's status is recomputed from the set of completed phases. */
module TimelineCard {
  import opened Base
  import opened Calculations
  import opened Coach

  /** The phase a milestone stands for, if any. */
  function PhaseOf(milestoneId: string): (r: Option<string>)
    ensures r.Some? ==> r.value in PhaseNames
    ensures r.None? <==> milestoneId !in ["docs", "credit", "packet", "preapproval", "appraisal"]
    ensures forall i :: 2 <= i < |MilestoneIds| && milestoneId == MilestoneIds[i] ==> r == Some(PhaseNames[i - 2])
  {
    match milestoneId
    case "docs" => Some("documents")
    case "credit" => Some("credit")
    case "packet" => Some("packet")
    case "preapproval" => Some("preapproval")
    case "appraisal" => Some("appraisal")
    case _ => None
  }

  lemma PhaseOfInjective(a: string, b: string)
    requires PhaseOf(a).Some? && PhaseOf(a) == PhaseOf(b)
    ensures a == b
  {
  }

  /** Position of a phase in the phase order, or -1. */
  function PhaseIndex(phase: string): (i: int)
    ensures -1 <= i < |PhaseNames|
    ensures i >= 0 ==> PhaseNames[i] == phase
    ensures i == -1 <==> phase !in PhaseNames
  {
    if phase == "documents" then 0
    else if phase == "credit" then 1
    else if phase == "packet" then 2
    else if phase == "preapproval" then 3
    else if phase == "appraisal" then 4
    else -1
  }

  /** The highest position among the first `k` phases that is completed, or -1. */
  function HighestFrom(completed: set<string>, k: nat): (m: int)
    requires k <= |PhaseNames|
    ensures -1 <= m < k
    ensures m >= 0 ==> PhaseNames[m] in completed
    ensures forall i :: m < i < k ==> PhaseNames[i] !in completed
  {
    if k == 0 then -1
    else if PhaseNames[k - 1] in completed then k - 1
    else HighestFrom(completed, k - 1)
  }

  /** The highest completed known phase; names outside the five are ignored. */
  function HighestCompleted(completed: set<string>): (m: int)
    ensures -1 <= m < |PhaseNames|
    ensures m >= 0 ==> PhaseNames[m] in completed
    ensures forall p :: p in completed && p in PhaseNames ==> PhaseIndex(p) <= m
  {
    HighestFrom(completed, |PhaseNames|)
  }

  /** The displayed status of one milestone. */
  function MilestoneStatus(milestoneId: string, completed: set<string>): (s: Status)
    ensures PhaseOf(milestoneId).Some? && PhaseOf(milestoneId).value in completed ==> s == Completed
    ensures milestoneId == "budget" ==> s == Completed
    ensures milestoneId == "dpa" ==> (s == Completed <==> |completed| > 0) && (s == Current <==> |completed| == 0)
    ensures PhaseOf(milestoneId).Some? && PhaseOf(milestoneId).value !in completed ==>
      (s == Current <==> PhaseIndex(PhaseOf(milestoneId).value) == HighestCompleted(completed) + 1)
      && s != Completed
    ensures PhaseOf(milestoneId).None? && milestoneId != "budget" && milestoneId != "dpa" ==> s == Upcoming
  {
    var phase := PhaseOf(milestoneId);
    if phase.Some? && phase.value in completed then Completed
    else if milestoneId == "budget" then Completed
    else if milestoneId == "dpa" then (if |completed| > 0 then Completed else Current)
    else if phase.Some? && PhaseIndex(phase.value) == HighestCompleted(completed) + 1 then Current
    else Upcoming
  }

  /** At most one phase milestone is current at a time. */
  lemma AtMostOneCurrentPhase(a: string, b: string, completed: set<string>)
    requires PhaseOf(a).Some? && PhaseOf(b).Some?
    requires MilestoneStatus(a, completed) == Current && MilestoneStatus(b, completed) == Current
    ensures a == b
  {
    assert PhaseIndex(PhaseOf(a).value) == PhaseIndex(PhaseOf(b).value);
    PhaseOfInjective(a, b);
  }

  /** The current phase milestone is the one right after the highest completed
      phase, so every phase before it is either completed or was skipped. */
  lemma CurrentFollowsHighest(a: string, completed: set<string>)
    requires PhaseOf(a).Some? && MilestoneStatus(a, completed) == Current
    ensures PhaseIndex(PhaseOf(a).value) == HighestCompleted(completed) + 1
    ensures forall i :: PhaseIndex(PhaseOf(a).value) <= i < |PhaseNames| ==> PhaseNames[i] !in completed
  {
  }

  /** Names outside the five phases do not move the current step; they only
      mark the assistance check as done. */
  lemma ForeignNamesIgnored(milestoneId: string, completed: set<string>, x: string)
    requires x !in PhaseNames && milestoneId != "dpa"
    ensures MilestoneStatus(milestoneId, completed + {x}) == MilestoneStatus(milestoneId, completed)
  {
    assert HighestCompleted(completed + {x}) == HighestCompleted(completed) by {
      var h1 := HighestCompleted(completed + {x});
      var h0 := HighestCompleted(completed);
      if h1 >= 0 { assert PhaseNames[h1] in completed; assert PhaseIndex(PhaseNames[h1]) == h1; }
      if h0 >= 0 { assert PhaseIndex(PhaseNames[h0]) == h0; }
    }
  }

  /** The statuses the card draws, one per milestone in order. */
  function DisplayedStatuses(ms: seq<Milestone>, completed: set<string>): (ss: seq<Status>)
    ensures |ss| == |ms|
    ensures forall i :: 0 <= i < |ms| ==> ss[i] == MilestoneStatus(ms[i].id, completed)
  {
    seq(|ms|, i requires 0 <= i < |ms| => MilestoneStatus(ms[i].id, completed))
  }

  /** Before any phase is done both the assistance check and the documents
      milestone show as current, unlike the generated statuses. */
  lemma FreshTimelineStatuses(etaWeeks: int)
    ensures DisplayedStatuses(GenerateTimeline(etaWeeks), {})
         == [Completed, Current, Current, Upcoming, Upcoming, Upcoming, Upcoming]
    ensures GenerateTimeline(etaWeeks)[2].status == Upcoming
  {
    var ms := GenerateTimeline(etaWeeks);
    assert HighestCompleted({}) == -1;
    assert forall i :: 0 <= i < 7 ==> ms[i].id == MilestoneIds[i];
  }

  /** With every phase done, every milestone shows as completed. */
  lemma FinishedTimelineStatuses(etaWeeks: int)
    ensures DisplayedStatuses(GenerateTimeline(etaWeeks), PhaseSet) == seq(7, i => Completed)
  {
    var ms := GenerateTimeline(etaWeeks);
    assert forall i :: 0 <= i < 7 ==> ms[i].id == MilestoneIds[i];
    assert |PhaseSet| > 0 by { assert "documents" in PhaseSet; }
  }
}
